=== FILE: README.md ===
# Solar-system gravity simulation, modelled in Dafny

This project models the core of a small interactive N-body gravity
simulation. It has three parts.

- **Bodies** (`particles.py`). A body keeps a *baseline* and a *live sphere*. The baseline is the initial position, velocity, radius and mass, plus the derived initial momentum. The live sphere is the position and momentum the integrator moves. `reset_model` copies the baseline into the sphere. `get_vals` flattens the baseline into an 8-column save row.
- **The controller** (`SolarSystem` in `simulations.py`). It keeps a registry whose index 0 is always the sun. Planets are added behind a capacity guard and start on a circular orbit. Parameter edits are validated: the mass must stay positive and a position must stay off the origin. The controller also provides reset, a start/stop toggle, a camera focus that wraps around, the G input, and save/load of the rows.
- **Force law and time step.** Newton's law of gravitation gives the force. An Euler–Cromer step adds `force * dt` to each momentum, then moves each position by `momentum * dt / mass`. The two drafts are modelled next to the controller. `draft_sim.py` is a star and one planet with sliders. `draft_sim2.py` is an N-body class with an integer G.

Each module maps to one piece of the source:

| module | what it models |
|---|---|
| `Vectors` | exact real 3-vectors. The magnitude takes a `sqrt` function as a parameter, constrained by `IsSqrt` |
| `Particles` | the body record, reset, and the row encoding |
| `Names` | planet names (`"Planet " + str(index)`) and their injectivity |
| `Prompts` | the edit menus: how a menu entry's text selects the field and the body to edit |
| `Controls` | the numeric text input and the cyclic camera focus |
| `PairSums` | sums over ordered pairs of bodies. An antisymmetric pair function sums to zero (Newton's third law summed) |
| `Gravity` | the force law, plus two N-body steps: the one the source writes and the one it evidently intends (see Findings) |
| `SolarSystem` | the controller, as a record with one pure function per callback |
| `DraftTwoBody` | the two-body draft |
| `DraftSimulation` | the N-body draft |

Floating point becomes Dafny `real`. Where the source divides by zero, the model returns an error value instead.

Some behaviours of the code are easy to miss, and the model keeps them as written:

- `button_reset` restores the bodies and stops the simulation, but keeps the clock (simulations.py:272-283).
- `button_load` appends every row of the file. It has no counterpart to the body limit of `button_add` (simulations.py:291 against simulations.py:473-479).
- A pass of the loop fails partway through when two bodies coincide, when a body has zero mass, when a body's arrow divides by a zero length, or when a body of negative mass is moving, since its velocity arrow takes the logarithm of a negative number (simulations.py:493-504, 539-546, 209-215; draft_sim2.py:154-158, 190-203). In the model the pass returns an error and no body is changed. The partial state the source leaves behind is not modelled.

One behaviour is modelled both ways:

- `set_value` and `menu_edit` read the body to edit from the last character of the menu entry, so the entries of planet 10 select the sun (simulations.py:372, 414). Only `Prompts.PromptBody` and `Prompts.ChoiceBodyIsLastDigit` keep that reading; `SolarSystem.SetValue` edits the planet the entry names (see "## Left out" and Findings).

## Model

| member | source | states |
|---|---|---|
| Particles.NewParticle | particles.py:5-25 | a new body stands at its baseline: its live position is the given position; its stored and live momentum are both mass times velocity; it keeps the given radius, mass and role |
| Particles.NewSun | particles.py:75-79 | a sun is emissive, unnamed, and at its baseline, and keeps the given position, velocity, radius and mass |
| Particles.NewPlanet | particles.py:82-88 | a planet is not emissive, carries the given name, is at its baseline, and keeps the given position, velocity, radius and mass |
| Particles.ResetModel | particles.py:61-72 | after a reset the live sphere is the baseline sphere: position0, momentum0 = mass·velocity0, the baseline radius and mass. The baseline and the role are unchanged |
| Particles.ResetAtBaseline | particles.py:67-71 | a body already at its baseline is a fixed point of reset |
| Particles.ResetIdempotent | particles.py:67-71 | resetting twice is the same as resetting once |
| Particles.ResetIsRebuild | particles.py:61-72 | a reset body equals a body constructed afresh from its baseline and role |
| Particles.GetVals | particles.py:41-59 | exactly eight values; the column of each field holds that field's baseline value, in the order pos x,y,z, vel x,y,z, radius, mass |
| Particles.PlanetFromRow | simulations.py:473-479 | the planet loaded from a row is at its baseline, has each field equal to that field's column, and carries the given name |
| Particles.RowRoundTrip | particles.py:50-59 | decoding a planet's saved row gives back that planet, reset to its baseline |
| Particles.WithBaseline | simulations.py:374-402 | writing one field sets that field to the value and leaves every other field, the live sphere and the role unchanged |
| Particles.FieldsDetermineBaseline | particles.py:50-59 | the eight row values and the role determine the whole baseline, so the row encoding loses nothing |
| Names.NatToString | simulations.py:327 | `str(index)` is a non-empty string of decimal digits with no leading zero; it is one digit exactly for indices below ten |
| Names.ParseNatToString | simulations.py:327 | reading the decimal digits back gives the index |
| Names.PlanetName | simulations.py:327 | the name is `Planet ` followed by decimal digits, and those digits read back as the index |
| Names.PlanetNameInjective | simulations.py:327 | two indices give the same planet name exactly when they are equal |
| Controls.NextFocus | simulations.py:201-204 | the next focus lies within the list, and equals focus + 1 modulo the list length |
| Controls.FocusAfterWraps | simulations.py:201-204 | up to one round of presses advances the focus by the number of presses, wrapping past the last body exactly once |
| Controls.FocusCycles | simulations.py:201-204 | one press per body brings the camera back to the body it started on |
| Gravity.GForce | simulations.py:493-504 | the force on p1 has magnitude G·m1·m2/r². Its projection on p1 − p2 is minus that magnitude times the distance, and it is parallel to the separation |
| Gravity.GForceWithoutG | simulations.py:493-504 | with G = 0 the force is zero |
| Gravity.NotAllPulled | simulations.py:533-537 | with G = 0, or with a single body, some body's total force is zero |
| Gravity.GForceAntisymmetric | simulations.py:493-504 | the force on p1 by p2 is minus the force on p2 by p1 |
| Gravity.EulerCromer | simulations.py:539-541 | the momentum changes by force·dt; the position moves so that mass·Δpos = dt·(new momentum); radius and mass are kept |
| Gravity.SequentialStep | simulations.py:533-541 | the pass as written returns an error, or a list of the same length in which every body is massive and has taken an Euler–Cromer step under the force of the list whose earlier bodies already hold their new state |
| Gravity.SequentialStepBodies | simulations.py:533-541 | in the pass as written, body i moves under the force of a list in which bodies 0..i−1 already hold their new state and the later ones their old state |
| Gravity.SequentialTwoBodies | draft_sim2.py:184-193 | on two bodies, the first moves under the pull of the second; the second then moves under the pull of the first's new position |
| Gravity.SequentialTwoBodyMomentum | draft_sim2.py:184-193 | on two bodies, the pass as written changes the total momentum by dt times (pull of b on a + pull of the moved a on b) |
| Gravity.SequentialStepLosesMomentum | simulations.py:533-541 | with dt ≠ 0 and G ≠ 0, whenever the first body's move changes its distance to the second, the pass as written changes the total momentum |
| Gravity.SimultaneousStep | draft_sim.py:185-194 | the corrected step succeeds exactly when all bodies are pairwise apart and massive. On failure it reports coincidence exactly when some pair coincides |
| Gravity.SimultaneousStepBodies | draft_sim.py:185-194 | in the corrected step, every body's impulse is dt times the total force from the start-of-step positions, and its position moves with its new momentum |
| Gravity.SimultaneousConservesMomentum | draft_sim.py:185-190 | the corrected step keeps the total momentum exactly |
| PairSums.AntisymmetricTotalZero | simulations.py:533-537 | pairwise forces that are antisymmetric sum to zero over all ordered pairs |
| SolarSystem.TheSun | simulations.py:173-182 | the sun is emissive and at its baseline, at the origin with zero velocity, radius 10 and mass 10000 |
| SolarSystem.AddSun | simulations.py:173-182 | appending the sun keeps the earlier bodies and adds one body with the sun's baseline, at that baseline |
| SolarSystem.Init | simulations.py:71-87 | a new controller is valid. The registry is exactly the sun of `add_sun`; time is 0, the camera is on the sun, the simulation is stopped, G = 0.1, no error is shown and the load button is offered |
| SolarSystem.ButtonStartStop | simulations.py:184-193 | running flips exactly when a planet is present; nothing else changes |
| SolarSystem.ButtonStartStopTwice | simulations.py:184-193 | pressing start/stop twice changes nothing |
| SolarSystem.CameraFollow | simulations.py:195-204 | the focus moves to (focus + 1) modulo the number of bodies and stays in range; nothing else changes |
| SolarSystem.WinputG | simulations.py:253-264 | G changes to the input's value and the error clears exactly when the input is numeric; otherwise G is kept and the error is shown |
| SolarSystem.ResetAll | simulations.py:275-277 | every body is reset: at its baseline, with the baseline it had before |
| SolarSystem.ButtonReset | simulations.py:272-283 | with a planet present, every body returns to its unchanged baseline and the simulation stops; with the sun alone nothing changes; the clock, focus, G and messages are kept in both cases |
| SolarSystem.ButtonResetIdempotent | simulations.py:272-283 | resetting twice is the same as resetting once |
| SolarSystem.AddPlanet | simulations.py:323-335 | appends one planet named after the index, at its baseline, with the given position, velocity, radius and mass; the earlier bodies are kept |
| SolarSystem.OrbitRadius | simulations.py:298-304 | the start distance of a new planet is positive whenever the sun's radius is |
| SolarSystem.OrbitSpeed | simulations.py:307 | whenever G·M/x is not negative, the speed is non-negative and its square is G·M/x |
| SolarSystem.OrbitSpeedCircular | simulations.py:305-308 | for G ≥ 0 the start speed is non-negative, and speed² · distance = G · sun mass (a circular orbit) |
| SolarSystem.OrbitingPlanet | simulations.py:296-315 | the new planet is named after its index; it sits on the x axis at the orbit radius, moves along z at the circular-orbit speed, and has radius 1 and mass 0.01 |
| SolarSystem.ButtonAdd | simulations.py:285-321 | below 10 bodies: the registry is reset, stopped, grows by exactly that orbiting planet, loses the load button and clears the error. When full only the error is set. The clock, camera focus and G are kept in both cases |
| SolarSystem.ButtonAddPlanet | simulations.py:296-315 | the added planet is named `Planet n+1`; it starts at (sun radius·(n+2), 0, 0) with velocity (0, 0, v), where v ≥ 0 and v²·x = G·sun mass when G ≥ 0; its radius is 1 and its mass 0.01 |
| SolarSystem.ButtonAddIsAddPlanet | simulations.py:314-315 | the registry after `button_add` is the reset registry plus what `add_planet` appends for the next index, radius 1 and mass 0.01 |
| SolarSystem.AddTimes | simulations.py:285-321 | any number of add presses keeps the registry valid |
| SolarSystem.AddTimesBounded | simulations.py:291 | however often add is pressed, the registry never exceeds 10 bodies |
| SolarSystem.EditAcceptedMeaning | simulations.py:374-402 | an edit of a position component is accepted exactly when the position with that component replaced has a positive magnitude. A mass edit is accepted exactly when the new mass is positive; velocity and radius edits always are |
| SolarSystem.EditBody | simulations.py:374-402 | field f holds the new value if the edit is accepted and its old value otherwise; every other field, the live sphere and the name are unchanged |
| SolarSystem.SetValue | simulations.py:360-404 | a non-numeric input changes nothing. A numeric one writes the field only if accepted (a position that stays off the origin, a positive mass, any velocity or radius), keeps every other field, and resets and stops the simulation. Other bodies keep their baselines. The clock, camera focus, G, message and load button are kept |
| SolarSystem.SetValueKeepsBodiesPhysical | simulations.py:374-402 | a planet that is off the origin with positive mass stays so after any edit |
| SolarSystem.SetValueFromPrompt | simulations.py:360-404 | an edit through a text input's prompt keeps the controller valid and its clock, focus and G, and happens only when the prompt names a field and a planet |
| SolarSystem.SetValueFromChoice | simulations.py:336-372 | the entry for field f in the menu of registered planet i edits field f of planet i, for every i, including i ≥ 10 |
| Prompts.ChoiceFieldRoundTrip | simulations.py:340-350 | every field entry of a planet's menu selects, by its first four characters, its own field |
| Prompts.ChooseSelectsNoField | simulations.py:340-350 | the first entry of a menu selects no field |
| Prompts.ChoiceBodyIsLastDigit | simulations.py:372 | read by its last character, the entry of planet i selects body i mod 10, which for i ≥ 10 is not planet i |
| Prompts.PlanetTenEditsSun | simulations.py:372 | the entries of planet 10 select body 0, the sun, and those of planet 11 select planet 1 |
| Prompts.PromptPlanetRoundTrip | simulations.py:340-350 | reading the number after the field label and the `Planet ` prefix gives back the planet's index, whatever its number of digits |
| Prompts.EditChoiceInjective | simulations.py:340-350 | two menu entries are equal exactly when they are for the same field of the same planet |
| SolarSystem.SaveRows | simulations.py:447-449 | one row per planet, in registry order and without the sun; each row is that planet's `get_vals` |
| SolarSystem.ButtonSave | simulations.py:444-456 | saving only sets the message: saved or failed |
| SolarSystem.LoadedPlanets | simulations.py:473-479 | row i becomes the planet decoded from it, named `Planet i+1` |
| SolarSystem.LoadedValid | simulations.py:467-479 | appending the loaded planets to the lone sun gives a valid registry |
| SolarSystem.ButtonLoad | simulations.py:458-479 | an unreadable file only sets the error. Otherwise loading succeeds exactly when every row has eight values; on success the button is withdrawn, the error clears, the rows' planets are appended with no count limit, and the clock, camera focus, G and running flag are kept |
| SolarSystem.AddRowsIsLoadedPlanets | simulations.py:473-479 | the planets `button_load` appends are exactly those of calling `add_planet` once per row, in order, row i under index i+1 |
| SolarSystem.SaveLoadRoundTrip | simulations.py:444-479 | loading the saved rows into a fresh controller gives back every planet in order, with its name, reset to its baseline |
| SolarSystem.Tick | simulations.py:529-556 | stopped, nothing changes, not even the clock. Running, the pass succeeds exactly when the corrected step does, every body feels a non-zero total force, which the force arrow divides by, and no body of negative mass is moving after the step, since its velocity arrow takes the logarithm of momentum / mass. The bodies' spheres are then the corrected step's output, the clock advances by 0.1, and the baselines, G and focus are kept |
| SolarSystem.TickFailsWithoutG | simulations.py:533-544 | with G = 0 a running pass fails, since no body feels a force |
| SolarSystem.NegativeMassTickFails | simulations.py:206-218 | a running pass fails when a body of negative mass is moving after the step |
| SolarSystem.PositiveMassesDrawArrows | simulations.py:206-218 | when every mass is positive the velocity arrows never fail a pass: it succeeds exactly when the step succeeds and every body feels a force |
| SolarSystem.TickConservesMomentum | simulations.py:529-556 | a successful tick keeps the total momentum of the bodies. This holds for the corrected step the model uses; the pass as written does not conserve momentum (see Findings) |
| DraftTwoBody.Initial | draft_sim.py:26-40 | the star is at rest at the origin and the planet at (0,0,10) with momentum (10,10,0); masses 2000 and 1, radii 2 and 0.5; running, t = 0 |
| DraftTwoBody.Restart | draft_sim.py:42-55 | both bodies return to their starting point and momentum and the globals return to their defaults. The spheres keep their edited radii and masses, and the clock and running flag are kept |
| DraftTwoBody.RestartIdempotent | draft_sim.py:42-55 | restarting twice is the same as restarting once |
| DraftTwoBody.RestartRestoresInitialIff | draft_sim.py:42-55 | a restart gives back the initial scene exactly when the spheres' radii and masses were never edited |
| DraftTwoBody.StartStop | draft_sim.py:60-65 | running flips unconditionally; nothing else changes |
| DraftTwoBody.StartStopTwice | draft_sim.py:60-65 | pressing start/stop twice changes nothing |
| DraftTwoBody.EditStarRadius | draft_sim.py:84-87 | the slider value goes to both the global and the star, every other attribute of the scene is unchanged, and all values stay within the slider ranges |
| DraftTwoBody.EditStarMass | draft_sim.py:91-94 | the slider value goes to both the global and the star, every other attribute of the scene is unchanged, and all values stay within the slider ranges |
| DraftTwoBody.EditPlanetRadius | draft_sim.py:97-100 | the slider value goes to both the global and the planet, every other attribute of the scene is unchanged, and all values stay within the slider ranges |
| DraftTwoBody.EditPlanetMass | draft_sim.py:103-106 | the slider value goes to both the global and the planet, every other attribute of the scene is unchanged, and all values stay within the slider ranges |
| DraftTwoBody.Run1Step | draft_sim.py:171-201 | stopped, nothing changes. Running, the step fails exactly when the bodies coincide; otherwise t advances by 0.001 and radii, masses and globals are kept |
| DraftTwoBody.SimultaneousPairBodies | draft_sim.py:185-194 | the corrected N-body step on [star, planet] updates each with the other's pull at the start-of-step positions |
| DraftTwoBody.Run1IsSimultaneous | draft_sim.py:185-194 | the two-body pass equals the corrected N-body step on the list [star, planet] |
| DraftTwoBody.Run1ConservesMomentum | draft_sim.py:185-190 | a pass keeps star momentum + planet momentum exactly |
| DraftSimulation.NewBody | draft_sim2.py:5-11 | the sphere is at the given position with the given radius and mass, and momentum mass·velocity |
| DraftSimulation.NewBodyVelocity | draft_sim2.py:6 | for a massive body, momentum / mass gives back the velocity |
| DraftSimulation.Init | draft_sim2.py:45-53 | no bodies, time 0, G = 1, focus and running flag unset |
| DraftSimulation.StartStop | draft_sim2.py:96-102 | the flag becomes the negation of its truth value, so an unset flag becomes true |
| DraftSimulation.StartStopTwice | draft_sim2.py:96-98 | once set, pressing twice changes nothing; from unset the first press starts |
| DraftSimulation.CameraFollow | draft_sim2.py:108-113 | fails exactly when the focus is unset; otherwise the focus moves to (focus + 1) modulo the body count and stays in range |
| DraftSimulation.CameraPressesFocus | draft_sim2.py:108-113 | k presses move the focus as k presses of the controller's camera button do |
| DraftSimulation.CameraCycles | draft_sim2.py:108-113 | one press per body brings the camera back |
| DraftSimulation.WinputG | draft_sim2.py:135-138 | only an integer input replaces G; any other input changes nothing |
| DraftSimulation.WinputGLastIntegerWins | draft_sim2.py:135-138 | of two inputs the later integer one decides G, and a decimal input leaves G as it was |
| DraftSimulation.Tick | draft_sim2.py:177-206 | fails first when the focus is unset or out of range. Otherwise the clock advances by 1e-5 on every pass, and bodies move only while running, by the corrected step. A running pass also fails when some body feels no force, ends with zero momentum or has a mass that is not positive, since the arrows take logarithms of the force's length and of momentum / mass, and divide by those lengths |
| DraftSimulation.LoneBodyTickFails | draft_sim2.py:184-197 | a running draft with a single body fails, since the body feels no force |
| DraftSimulation.TickConservesMomentum | draft_sim2.py:177-206 | a successful pass keeps the total momentum. This holds for the corrected step the model uses; the pass as written does not conserve momentum (see Findings) |
| DraftSimulation.StoppedClockRuns | draft_sim2.py:181-206 | while stopped, k passes leave the bodies in place and advance the clock by k time steps |

## Left out

- Rendering and widgets are not modelled: the scene, skybox, lights, trails, textures, graphs, captions, menus and `planet.rotate`. The arrows' lengths and directions are not modelled either. Their undefined cases are: a zero total force, or a moving body of negative mass, fails a pass of the controller (simulations.py:543-546, 209-215), and a zero total force, a zero new momentum or a mass that is not positive fails a pass of the N-body draft (draft_sim2.py:195-203). The controller's velocity arrow skips bodies at rest and bodies of zero mass (simulations.py:209-210). The two-body draft's arrows take the logarithm of a force that is positive because both masses are (draft_sim.py:144-147). The plots read body 1 (simulations.py:549-553), which exists whenever the simulation runs.
- `button_trails`, the arrow checkboxes, the ambient-light slider and `stop_simulation`: rendering toggles, or not reachable from the modelled callbacks.
- SolarSystem.SetValue, SolarSystem.SetValueFromPrompt, SolarSystem.SetValueFromChoice: edit the planet the prompt names (`Prompts.PromptPlanet`), the corrected reading. As written, the body is the prompt's last digit (simulations.py:372), so the entries of planet 10 and later edit body index mod 10, the sun included; `Prompts.ChoiceBodyIsLastDigit` states that reading and Findings lists it. The model also takes it that the callback fires, although the text input is created disabled (simulations.py:351-354) and `menu_edit` only makes it visible (simulations.py:440).
- `menu_edit` (simulations.py:409-442): it only copies the chosen entry into the prompt and shows the field's current value, which is display. For any entry of planet 10 it reads index 0, so it writes into `veditlist[-1]`, the last planet's input box, and the field entries show the sun's value (simulations.py:414-442); as display, this is not modelled.
- `get_valstext`: converting floats to text is outside exact real arithmetic.
- File input and output: the rows read by `genfromtxt` are a parameter (`None` when the file cannot be read), as is whether `savetxt` succeeded. The quirk of a one-row file reading back as a flat array is not modelled.
- SolarSystem.ButtonLoad: on a row shorter than eight values the source has already withdrawn the button and cleared the error before it fails. The model reports the failure but not that partial state.
- SolarSystem.ButtonAddPlanet: the circular-orbit relation is stated only for G ≥ 0. For a negative G the source's square root is not a number, which real arithmetic cannot express.
- SolarSystem.Tick, DraftSimulation.Tick, SolarSystem.TickConservesMomentum, DraftSimulation.TickConservesMomentum: the ticks use the corrected simultaneous step, not the one-body-at-a-time pass as written (see Findings). The momentum lemmas are therefore about the corrected step. The pass as written is `Gravity.SequentialStep`, and `Gravity.SequentialStepLosesMomentum` shows it does not conserve momentum.
- SolarSystem.Tick, DraftSimulation.Tick: when several failures are possible in one pass, the source reports the first body's failure. The model reports a coincidence or zero mass before an undefined arrow.
- Deleting the add button once the registry is full is not modelled. After that point the registry can never shrink, so no reachable state changes.
- Deleting the last planet: that operation is not part of the modelled source files.
- Frame pacing (`rate`) and the infinite loops: the model has one step function per loop body.
- The scripts that build the drafts' demo scenes and call `run` (draft_sim2.py:209-232): they only fill the body list, set the focus and start the loop.
- Whether a body of the N-body draft glows (`emissive`): it only affects lighting.
- The empty callbacks `button_restart`, `button_add` and `menu_type` in draft_sim2.py.
- Floating point: every quantity is an exact real, so the model proves no bounds on rounding error.

## Findings

| source | as written | input that shows it | evidently intended | confidence | as-written member | corrected member |
|---|---|---|---|---|---|---|
| simulations.py:533-541 | each body's momentum and position are updated before the next body's force is computed, so later bodies feel earlier bodies' new positions | G = 1 (typed into the G input), the controller's dt = 0.1, the sun (mass 10000 at the origin) and one planet edited to mass 1, at rest at (2, 0, 0). The sun gets momentum 250 and moves to x = 0.0025. The planet then feels a pull of 10000/1.9975² ≈ 2506.26 instead of 2500, so the total momentum becomes about (−0.626, 0, 0) instead of 0. The lemma covers every dt ≠ 0 and G ≠ 0 | an Euler–Cromer step that computes every force from the start-of-step positions and conserves total momentum, as the two-body draft does | not executed | Gravity.SequentialStepLosesMomentum | Gravity.SimultaneousConservesMomentum |
| draft_sim2.py:184-193 | the same one-body-at-a-time pass in the N-body draft | a body of mass 10000 at the origin and one of mass 1 at rest at (2, 0, 0), with the draft's G = 1 and dt = 1e-5: the total momentum changes by dt times the difference of the two pulls, which is non-zero once the first body has moved | the same simultaneous step | not executed | Gravity.SequentialTwoBodyMomentum | Gravity.SimultaneousConservesMomentum |
| simulations.py:372 | the body to edit is the value of the prompt's last character; for body 0 the callback then asks the sun for `get_valstext`, which only `Planet` defines (simulations.py:406; particles.py:75-90), and fails with an AttributeError | after loading a file of eleven rows, choosing "mass  Planet 11" and typing 5 would set planet 1's mass, and "mass  Planet 10" would set the sun's mass to 5, reset the bodies and then fail at simulations.py:406. Whether typing is possible at all is unclear: the text input is created with `disabled=True` (simulations.py:351-354) and `menu_edit` only sets `visible = True` (simulations.py:440) | the body is the planet the menu entry names | not executed | Prompts.ChoiceBodyIsLastDigit | Prompts.PromptPlanetRoundTrip |

=== FILE: controls.dfy ===
/** Inputs and small controls shared by the simulation front ends: the number
    a text box yields, and the camera focus that cycles through the bodies. */
module Controls {

  /** What a text input reports for its content: an integer, a decimal
      number, or nothing when the text is not a number. */
  datatype Number = IntNumber(i: int) | FloatNumber(f: real) | NotNumber

  /** The value of an integer or decimal input. */
  function NumberValue(n: Number): (v: real)
    requires !n.NotNumber?
    ensures n.IntNumber? ==> v == n.i as real
    ensures n.FloatNumber? ==> v == n.f
  {
    match n
    case IntNumber(i) => i as real
    case FloatNumber(f) => f
  }

  /** `camera_follow`: the next body in the list, back to the first past the
      last one. */
  function NextFocus(focus: nat, count: nat): (r: nat)
    ensures 0 < count ==> r < count
    ensures focus < count ==> r == (focus + 1) % count
  {
    if focus + 1 < count then focus + 1 else 0
  }

  /** The focus after `k` presses of the camera button. */
  function FocusAfter(focus: nat, count: nat, k: nat): nat {
    if k == 0 then focus else NextFocus(FocusAfter(focus, count, k - 1), count)
  }

  /** From a valid focus, at most one full round of presses advances the
      focus by the number of presses, wrapping once past the last body. */
  lemma {:induction false} FocusAfterWraps(focus: nat, count: nat, k: nat)
    requires focus < count && k <= count
    ensures FocusAfter(focus, count, k) == if focus + k < count then focus + k else focus + k - count
  {
    if k > 0 {
      FocusAfterWraps(focus, count, k - 1);
    }
  }

  /** Pressing the camera button once per body brings the camera back to the
      body it started on. */
  lemma FocusCycles(focus: nat, count: nat)
    requires focus < count
    ensures FocusAfter(focus, count, count) == focus
  {
    FocusAfterWraps(focus, count, count);
  }
}

=== FILE: draft_simulation.dfy ===
/** The second draft of the simulation: a class holding an arbitrary list of
    bodies, an integer gravitational constant, a camera focus and a running
    flag, both unset until the script that builds the scene sets them.

    Unlike the controller, its loop advances the clock on every pass, running
    or not, and it reads the body under the camera focus before anything
    else, so an unset or out-of-range focus stops the loop. */
module DraftSimulation {
  import opened Vectors
  import opened Results
  import opened Particles
  import opened Gravity
  import opened Controls

  const DeltaTime: real := 0.00001
  const InitialG: int := 1

  /** `Particle(...)`: a sphere whose momentum is mass times the given
      velocity. A body of the draft is its sphere; whether it glows only
      affects lighting. */
  function NewBody(position: Vec3, radius: real, mass: real, velocity: Vec3): (b: Sphere)
    ensures b.pos == position && b.radius == radius && b.mass == mass
    ensures b.momentum == Scale(mass, velocity)
  {
    Sphere(position, Scale(mass, velocity), radius, mass)
  }

  /** A massive body's velocity can be read back from its momentum. */
  lemma NewBodyVelocity(position: Vec3, radius: real, mass: real, velocity: Vec3)
    requires mass != 0.0
    ensures Div(NewBody(position, radius, mass, velocity).momentum, mass) == velocity
  {
    var p := Scale(mass, velocity);
    assert p.x / mass == velocity.x;
    assert p.y / mass == velocity.y;
    assert p.z / mass == velocity.z;
  }

  datatype Simulation = Simulation(
    bodies: seq<Sphere>,
    time: real,
    g: int,
    focus: Option<nat>,
    running: Option<bool>)

  /** The running flag as a condition: an unset flag counts as false. */
  predicate Running(s: Simulation) {
    s.running == Some(true)
  }

  /** `Simulation()`: no bodies, time 0, G = 1, focus and running unset. */
  function Init(): (s: Simulation)
    ensures s.bodies == [] && s.time == 0.0 && s.g == InitialG
    ensures s.focus.None? && s.running.None? && !Running(s)
  {
    Simulation([], 0.0, InitialG, None, None)
  }

  /** `button_startstop`: the flag becomes the negation of its truth value,
      so an unset flag becomes true. */
  function StartStop(s: Simulation): (r: Simulation)
    ensures r.running.Some?
    ensures Running(r) <==> !Running(s)
    ensures r == s.(running := r.running)
  {
    s.(running := Some(!Running(s)))
  }

  /** Once the flag is set, pressing the button twice changes nothing; from
      the unset flag the first press starts the simulation. */
  lemma StartStopTwice(s: Simulation)
    ensures s.running.Some? ==> StartStop(StartStop(s)) == s
    ensures s.running.None? ==> StartStop(s).running == Some(true)
  {
    if s.running.Some? {
      var b := s.running.value;
      assert s.running == Some(b);
      assert Running(s) <==> b;
    }
  }

  datatype FocusError = FocusUnset

  /** `camera_follow`: the next body in the list, back to the first past the
      last one; with the focus unset the callback fails. */
  function CameraFollow(s: Simulation): (r: Result<Simulation, FocusError>)
    ensures r.Err? <==> s.focus.None?
    ensures r.Ok? ==> r.value == s.(focus := r.value.focus) && r.value.focus.Some?
    ensures r.Ok? && 0 < |s.bodies| ==> r.value.focus.value < |s.bodies|
    ensures r.Ok? && s.focus.value < |s.bodies| ==> r.value.focus.value == (s.focus.value + 1) % |s.bodies|
  {
    match s.focus
    case None => Err(FocusUnset)
    case Some(f) => Ok(s.(focus := Some(NextFocus(f, |s.bodies|))))
  }

  /** `k` presses of the camera button, stopping at the first failure. */
  function CameraPresses(s: Simulation, k: nat): Result<Simulation, FocusError> {
    if k == 0 then Ok(s)
    else match CameraPresses(s, k - 1)
      case Err(e) => Err(e)
      case Ok(t) => CameraFollow(t)
  }

  /** With the focus set, `k` presses move it as `k` presses of the
      controller's camera button do. */
  lemma {:induction false} CameraPressesFocus(s: Simulation, k: nat)
    requires s.focus.Some?
    ensures CameraPresses(s, k).Ok?
    ensures CameraPresses(s, k).value == s.(focus := Some(FocusAfter(s.focus.value, |s.bodies|, k)))
  {
    if k > 0 {
      CameraPressesFocus(s, k - 1);
    }
  }

  /** Pressing the camera button once per body brings the camera back. */
  lemma CameraCycles(s: Simulation)
    requires s.focus.Some? && s.focus.value < |s.bodies|
    ensures CameraPresses(s, |s.bodies|) == Ok(s)
  {
    CameraPressesFocus(s, |s.bodies|);
    FocusCycles(s.focus.value, |s.bodies|);
  }

  /** `winput_g`: only an integer input replaces G. */
  function WinputG(s: Simulation, n: Number): (r: Simulation)
    ensures n.IntNumber? ==> r.g == n.i
    ensures !n.IntNumber? ==> r == s
    ensures r == s.(g := r.g)
  {
    match n
    case IntNumber(i) => s.(g := i)
    case _ => s
  }

  /** Of two inputs, the later integer one decides G; a decimal input leaves
      G as it was, as does any input that is not a number. */
  lemma WinputGLastIntegerWins(s: Simulation, a: Number, b: Number)
    ensures WinputG(WinputG(s, a), b).g == (if b.IntNumber? then b.i else WinputG(s, a).g)
    ensures a.FloatNumber? ==> WinputG(s, a).g == s.g
  {
  }

  /** Every body has a positive mass and a non-zero momentum. The velocity
      arrows take the logarithm of the momentum's length over the mass and
      divide by that length. */
  predicate VelocityArrowsDefined(ms: seq<Sphere>) {
    forall i :: 0 <= i < |ms| ==> 0.0 < ms[i].mass && Dot(ms[i].momentum, ms[i].momentum) > 0.0
  }

  /** Why a pass of the loop fails: no body under the camera focus, a step
      that divides by zero, or an arrow whose length is undefined because a
      body feels no force, has come to rest or has a negative mass. */
  datatype TickError = NoFocusBody | Step(error: StepError) | ArrowUndefined

  /** One pass of the loop in `run`. The body under the camera focus is read
      first, which fails when the focus is unset or past the end of the list.
      While running, every body then takes one Euler–Cromer step of
      `DeltaTime` under G, with all forces computed from the positions at the
      start of the step (see `SimultaneousStep`); the arrows then need every
      total force and every new momentum to be non-zero and every mass to be
      positive. The clock advances on
      every pass, running or not. */
  function Tick(sqrt: real -> real, s: Simulation): (r: Result<Simulation, TickError>)
    requires IsSqrt(sqrt)
    ensures r == Err(NoFocusBody) <==> s.focus.None? || |s.bodies| <= s.focus.value
    ensures r.Ok? ==> r.value.time == s.time + DeltaTime
    ensures r.Ok? ==> r == Ok(s.(bodies := r.value.bodies, time := r.value.time))
    ensures r.Ok? && !Running(s) ==> r.value.bodies == s.bodies
    ensures r.Ok? && Running(s) ==>
              && SimultaneousStep(sqrt, s.g as real, DeltaTime, s.bodies) == Ok(r.value.bodies)
              && AllPulled(sqrt, s.g as real, s.bodies) && VelocityArrowsDefined(r.value.bodies)
    ensures s.focus.Some? && s.focus.value < |s.bodies| && Running(s) ==>
              (r.Ok? <==> && SimultaneousStep(sqrt, s.g as real, DeltaTime, s.bodies).Ok?
                          && AllPulled(sqrt, s.g as real, s.bodies)
                          && VelocityArrowsDefined(SimultaneousStep(sqrt, s.g as real, DeltaTime, s.bodies).value))
  {
    if s.focus.None? || |s.bodies| <= s.focus.value then Err(NoFocusBody)
    else if !Running(s) then Ok(s.(time := s.time + DeltaTime))
    else
      match SimultaneousStep(sqrt, s.g as real, DeltaTime, s.bodies)
      case Err(e) => Err(Step(e))
      case Ok(ms) =>
        if !AllPulled(sqrt, s.g as real, s.bodies) || !VelocityArrowsDefined(ms) then Err(ArrowUndefined)
        else Ok(s.(bodies := ms, time := s.time + DeltaTime))
  }

  /** A running draft with a single body cannot take a step: the body feels
      no force. */
  lemma LoneBodyTickFails(sqrt: real -> real, s: Simulation)
    requires IsSqrt(sqrt)
    requires Running(s) && |s.bodies| == 1
    ensures Tick(sqrt, s).Err?
  {
    NotAllPulled(sqrt, s.g as real, s.bodies);
  }

  /** A pass of the loop conserves the total momentum of the bodies. */
  lemma TickConservesMomentum(sqrt: real -> real, s: Simulation)
    requires IsSqrt(sqrt)
    requires Tick(sqrt, s).Ok?
    ensures TotalMomentum(Tick(sqrt, s).value.bodies) == TotalMomentum(s.bodies)
  {
    if Running(s) {
      SimultaneousConservesMomentum(sqrt, s.g as real, DeltaTime, s.bodies);
    }
  }

  /** `k` passes of the loop, stopping at the first failure. */
  function Ticks(sqrt: real -> real, s: Simulation, k: nat): Result<Simulation, TickError>
    requires IsSqrt(sqrt)
  {
    if k == 0 then Ok(s)
    else match Ticks(sqrt, s, k - 1)
      case Err(e) => Err(e)
      case Ok(t) => Tick(sqrt, t)
  }

  /** While stopped, with a body under the camera, the loop leaves the bodies
      where they are and its clock runs on: after `k` passes it has advanced
      by `k` time steps. */
  lemma {:induction false} StoppedClockRuns(sqrt: real -> real, s: Simulation, k: nat)
    requires IsSqrt(sqrt)
    requires !Running(s) && s.focus.Some? && s.focus.value < |s.bodies|
    ensures Ticks(sqrt, s, k) == Ok(s.(time := s.time + k as real * DeltaTime))
  {
    if k > 0 {
      StoppedClockRuns(sqrt, s, k - 1);
    }
  }
}

=== FILE: draft_two_body.dfy ===
/** The first draft of the simulation: one star and one planet, moved by
    the Euler–Cromer method with G = 1, with sliders for the two radii and
    masses and buttons to start, stop and restart.

    The draft keeps the slider values in globals next to the spheres; a
    slider writes both, while the restart button writes the globals back to
    their defaults and leaves the spheres' radii and masses as edited. */
module DraftTwoBody {
  import opened Vectors
  import opened Results
  import opened Particles
  import opened Gravity

  const G: real := 1.0
  const Dt: real := 0.001

  const StarMass: real := 2000.0
  const StarRadius: real := 2.0
  const PlanetMass: real := 1.0
  const PlanetRadius: real := 0.5
  const PlanetStart: Vec3 := Vec3(0.0, 0.0, 10.0)
  const PlanetKick: Vec3 := Vec3(10.0, 10.0, 0.0)

  /** The slider globals `r_s`, `m_s`, `r_p` and `m_p`. */
  datatype Settings = Settings(starRadius: real, starMass: real, planetRadius: real, planetMass: real)

  const Defaults: Settings := Settings(StarRadius, StarMass, PlanetRadius, PlanetMass)

  datatype Scene = Scene(star: Sphere, planet: Sphere, settings: Settings, running: bool, t: real)

  /** The ranges of the four sliders. */
  predicate RadiusInRange(v: real) { 0.0 <= v <= 10.0 }
  predicate StarMassInRange(v: real) { 1000.0 <= v <= 10000.0 }
  predicate PlanetMassInRange(v: real) { 1.0 <= v <= 10.0 }

  /** Every radius and mass, of the spheres and of the globals, is one a
      slider can produce or one the draft starts with. */
  predicate Valid(s: Scene) {
    && RadiusInRange(s.star.radius) && StarMassInRange(s.star.mass)
    && RadiusInRange(s.planet.radius) && PlanetMassInRange(s.planet.mass)
    && RadiusInRange(s.settings.starRadius) && StarMassInRange(s.settings.starMass)
    && RadiusInRange(s.settings.planetRadius) && PlanetMassInRange(s.settings.planetMass)
  }

  /** The star at rest at the origin and the planet at its starting point
      with its starting momentum. */
  predicate AtStart(s: Scene) {
    && s.star.pos == Zero && s.star.momentum == Zero
    && s.planet.pos == PlanetStart && s.planet.momentum == PlanetKick
  }

  /** `initialise_objects` followed by the start of `run1`: the scene at its
      starting point with the default radii and masses, running, at time 0. */
  function Initial(): (s: Scene)
    ensures Valid(s) && AtStart(s)
    ensures s.settings == Defaults
    ensures s.star.radius == StarRadius && s.star.mass == StarMass
    ensures s.planet.radius == PlanetRadius && s.planet.mass == PlanetMass
    ensures s.running && s.t == 0.0
  {
    Scene(Sphere(Zero, Zero, StarRadius, StarMass),
          Sphere(PlanetStart, PlanetKick, PlanetRadius, PlanetMass),
          Defaults, true, 0.0)
  }

  /** `restart_objects`: both bodies back to their starting points and
      momenta and the globals back to their defaults; the spheres keep their
      radii and masses, and neither the clock nor the running flag changes. */
  function Restart(s: Scene): (r: Scene)
    requires Valid(s)
    ensures Valid(r) && AtStart(r)
    ensures r.settings == Defaults
    ensures r.star.radius == s.star.radius && r.star.mass == s.star.mass
    ensures r.planet.radius == s.planet.radius && r.planet.mass == s.planet.mass
    ensures r.running == s.running && r.t == s.t
  {
    s.(star := s.star.(pos := Zero, momentum := Zero),
       planet := s.planet.(pos := PlanetStart, momentum := PlanetKick),
       settings := Defaults)
  }

  /** Restarting twice is restarting once. */
  lemma RestartIdempotent(s: Scene)
    requires Valid(s)
    ensures Restart(Restart(s)) == Restart(s)
  {
  }

  /** A restart brings back the initial scene only if the sliders of the
      spheres were never moved away from the defaults: an edited radius or
      mass survives it. */
  lemma RestartRestoresInitialIff(s: Scene)
    requires Valid(s)
    requires s.running && s.t == 0.0
    ensures Restart(s) == Initial() <==>
              && s.star.radius == StarRadius && s.star.mass == StarMass
              && s.planet.radius == PlanetRadius && s.planet.mass == PlanetMass
  {
    var r := Restart(s);
    var i := Initial();
    if && s.star.radius == StarRadius && s.star.mass == StarMass
       && s.planet.radius == PlanetRadius && s.planet.mass == PlanetMass {
      assert r.star == i.star;
      assert r.planet == i.planet;
    }
  }

  /** `button_startstop`: flips the running flag and nothing else. */
  function StartStop(s: Scene): (r: Scene)
    ensures r.running != s.running
    ensures r == s.(running := r.running)
  {
    s.(running := !s.running)
  }

  lemma StartStopTwice(s: Scene)
    ensures StartStop(StartStop(s)) == s
  {
  }

  /** `edit_rstar`: the star-radius slider writes the global and the star. */
  function EditStarRadius(s: Scene, v: real): (r: Scene)
    requires Valid(s) && RadiusInRange(v)
    ensures Valid(r)
    ensures r.settings.starRadius == v && r.star.radius == v
    ensures r.(star := s.star, settings := s.settings) == s
    ensures r.star.(radius := s.star.radius) == s.star && r.settings.(starRadius := s.settings.starRadius) == s.settings
  {
    s.(star := s.star.(radius := v), settings := s.settings.(starRadius := v))
  }

  /** `edit_mstar`: the star-mass slider writes the global and the star. */
  function EditStarMass(s: Scene, v: real): (r: Scene)
    requires Valid(s) && StarMassInRange(v)
    ensures Valid(r)
    ensures r.settings.starMass == v && r.star.mass == v
    ensures r.(star := s.star, settings := s.settings) == s
    ensures r.star.(mass := s.star.mass) == s.star && r.settings.(starMass := s.settings.starMass) == s.settings
  {
    s.(star := s.star.(mass := v), settings := s.settings.(starMass := v))
  }

  /** `edit_rplanet`: the planet-radius slider writes the global and the
      planet. */
  function EditPlanetRadius(s: Scene, v: real): (r: Scene)
    requires Valid(s) && RadiusInRange(v)
    ensures Valid(r)
    ensures r.settings.planetRadius == v && r.planet.radius == v
    ensures r.(planet := s.planet, settings := s.settings) == s
    ensures r.planet.(radius := s.planet.radius) == s.planet && r.settings.(planetRadius := s.settings.planetRadius) == s.settings
  {
    s.(planet := s.planet.(radius := v), settings := s.settings.(planetRadius := v))
  }

  /** `edit_mplanet`: the planet-mass slider writes the global and the
      planet. */
  function EditPlanetMass(s: Scene, v: real): (r: Scene)
    requires Valid(s) && PlanetMassInRange(v)
    ensures Valid(r)
    ensures r.settings.planetMass == v && r.planet.mass == v
    ensures r.(planet := s.planet, settings := s.settings) == s
    ensures r.planet.(mass := s.planet.mass) == s.planet && r.settings.(planetMass := s.settings.planetMass) == s.settings
  {
    s.(planet := s.planet.(mass := v), settings := s.settings.(planetMass := v))
  }

  /** One pass of the loop in `run1`. While running, both forces are computed
      from the positions at the start of the pass, then both momenta and
      positions are updated and the clock advances by `Dt`; while stopped
      nothing changes. Coincident bodies make the force undefined. */
  function Run1Step(sqrt: real -> real, s: Scene): (r: Result<Scene, StepError>)
    requires IsSqrt(sqrt)
    requires Valid(s)
    ensures !s.running ==> r == Ok(s)
    ensures s.running ==> (r.Ok? <==> Apart(s.star.pos, s.planet.pos))
    ensures s.running && r.Err? ==> r.error == Coincident
    ensures r.Ok? ==> Valid(r.value)
    ensures s.running && r.Ok? ==>
              && r.value.t == s.t + Dt
              && r.value.settings == s.settings && r.value.running
              && r.value.star.radius == s.star.radius && r.value.star.mass == s.star.mass
              && r.value.planet.radius == s.planet.radius && r.value.planet.mass == s.planet.mass
  {
    if !s.running then Ok(s)
    else if !Apart(s.star.pos, s.planet.pos) then Err(Coincident)
    else
      var starForce := GForce(sqrt, G, s.star, s.planet);
      var planetForce := GForce(sqrt, G, s.planet, s.star);
      Ok(s.(star := EulerCromer(s.star, starForce, Dt),
            planet := EulerCromer(s.planet, planetForce, Dt),
            t := s.t + Dt))
  }

  /** The two bodies of a scene, as a list, are massive; they are all
      separated exactly when they are apart. */
  lemma PairSeparated(s: Scene)
    requires Valid(s)
    ensures AllMassive([s.star, s.planet])
    ensures AllSeparated([s.star, s.planet]) <==> Apart(s.star.pos, s.planet.pos)
  {
    var ms := [s.star, s.planet];
    if Apart(s.star.pos, s.planet.pos) {
      assert Apart(s.planet.pos, s.star.pos);
      assert Separated(ms, 0) && Separated(ms, 1);
    } else {
      assert !Apart(ms[0].pos, ms[1].pos);
      assert !Separated(ms, 0);
    }
  }

  lemma SimultaneousPairBodies(sqrt: real -> real, s: Scene)
    requires IsSqrt(sqrt)
    requires Valid(s) && s.running && Apart(s.star.pos, s.planet.pos)
    ensures SimultaneousStep(sqrt, G, Dt, [s.star, s.planet]).Ok?
    ensures var out := SimultaneousStep(sqrt, G, Dt, [s.star, s.planet]).value;
            && out[0] == EulerCromer(s.star, GForce(sqrt, G, s.star, s.planet), Dt)
            && out[1] == EulerCromer(s.planet, GForce(sqrt, G, s.planet, s.star), Dt)
  {
    var ms := [s.star, s.planet];
    PairSeparated(s);
    assert Apart(ms[1].pos, ms[0].pos);
    TwoBodyForceOnFirst(sqrt, G, ms);
    TwoBodyForceOnSecond(sqrt, G, ms);
    SimultaneousStepBodies(sqrt, G, Dt, ms);
  }

  /** The draft's two-body pass is the simultaneous N-body step on the list
      [star, planet]: the same forces, the same updates. */
  lemma Run1IsSimultaneous(sqrt: real -> real, s: Scene)
    requires IsSqrt(sqrt)
    requires Valid(s) && s.running
    ensures var r := Run1Step(sqrt, s);
            var step := SimultaneousStep(sqrt, G, Dt, [s.star, s.planet]);
            && (r.Ok? <==> step.Ok?)
            && (r.Ok? ==> step.value == [r.value.star, r.value.planet])
  {
    PairSeparated(s);
    if Apart(s.star.pos, s.planet.pos) {
      SimultaneousPairBodies(sqrt, s);
      var step := SimultaneousStep(sqrt, G, Dt, [s.star, s.planet]).value;
      var r := Run1Step(sqrt, s).value;
      assert step == [step[0], step[1]];
    }
  }

  /** A pass of `run1` keeps the total momentum of star and planet. */
  lemma Run1ConservesMomentum(sqrt: real -> real, s: Scene)
    requires IsSqrt(sqrt)
    requires Valid(s)
    requires Run1Step(sqrt, s).Ok?
    ensures var r := Run1Step(sqrt, s).value;
            Add(r.star.momentum, r.planet.momentum) == Add(s.star.momentum, s.planet.momentum)
  {
    if s.running {
      var r := Run1Step(sqrt, s).value;
      Run1IsSimultaneous(sqrt, s);
      SimultaneousConservesMomentum(sqrt, G, Dt, [s.star, s.planet]);
      TwoBodyMomentum(s.star, s.planet);
      TwoBodyMomentum(r.star, r.planet);
    }
  }
}

=== FILE: gravity.dfy ===
/** Newtonian gravity between spheres and the Euler–Cromer time step.

    `calculate_gforce` (and the drafts' `gforce`) give the force on one body
    exerted by another. A time step adds `force * dt` to each momentum and then
    moves each body by `momentum * dt / mass`, using the momentum just
    computed. Two N-body steps are modelled:

    - `SequentialStep`, the loop as the simulation writes it: bodies are
      updated one after another, so the force on a later body is computed from
      the already-moved positions of the earlier ones;
    - `SimultaneousStep`, the Euler–Cromer step the two-body draft performs:
      every force is computed from the positions at the start of the step.

    Only the second conserves total momentum (see `SequentialStepLosesMomentum`
    and `SimultaneousConservesMomentum`). A zero separation or a zero mass
    makes the source divide by zero; a step that would do so returns an error. */
module Gravity {
  import opened Vectors
  import opened Results
  import opened Particles
  import opened PairSums

  /** Newton's law of gravitation at distance `rMag`. */
  function ForceMagnitude(g: real, m1: real, m2: real, rMag: real): real
    requires rMag != 0.0
  {
    g * m1 * m2 / (rMag * rMag)
  }

  predicate Apart(a: Vec3, b: Vec3) {
    Dot(Sub(a, b), Sub(a, b)) > 0.0
  }

  /** The force on `p1` exerted by `p2`, with gravitational constant `g`:
      magnitude G m1 m2 / r², pointing from `p1` towards `p2` (its projection
      on `p1.pos - p2.pos` is minus its magnitude times the distance) and
      parallel to the separation. */
  function GForce(sqrt: real -> real, g: real, p1: Sphere, p2: Sphere): (f: Vec3)
    requires IsSqrt(sqrt)
    requires Apart(p1.pos, p2.pos)
    ensures Mag(sqrt, f) == Abs(g * p1.mass * p2.mass / Dot(Sub(p1.pos, p2.pos), Sub(p1.pos, p2.pos)))
    ensures Dot(f, Sub(p1.pos, p2.pos))
              == -(g * p1.mass * p2.mass / Dot(Sub(p1.pos, p2.pos), Sub(p1.pos, p2.pos)))
                 * Mag(sqrt, Sub(p1.pos, p2.pos))
    ensures Cross(f, Sub(p1.pos, p2.pos)) == Zero
  {
    var r := Sub(p1.pos, p2.pos);
    MagPositive(sqrt, r);
    var rMag := Mag(sqrt, r);
    var rHat := Div(r, rMag);
    var forceMag := ForceMagnitude(g, p1.mass, p2.mass, rMag);
    ForceLaw(sqrt, g, p1.mass, p2.mass, r);
    Scale(-forceMag, rHat)
  }

  lemma InverseTimesSquare(m: real, d: real)
    requires m != 0.0 && m * m == d
    ensures (1.0 / m) * d == m
  {
  }

  lemma ScaleScale(a: real, b: real, v: Vec3)
    ensures Scale(a, Scale(b, v)) == Scale(a * b, v)
  {
  }

  /** At distance `m` with `m * m == d`, Newton's law is `G m1 m2 / d`. */
  lemma ForceMagnitudeSquared(g: real, m1: real, m2: real, m: real, d: real)
    requires m != 0.0 && d != 0.0 && m * m == d
    ensures ForceMagnitude(g, m1, m2, m) == g * m1 * m2 / d
  {
  }

  /** A force `-f` along the unit vector `r / m`, where `m` is the length of
      `r`, projects onto `r` as `-f * m` and is parallel to `r`. */
  lemma AlongUnit(f: real, r: Vec3, m: real)
    requires m != 0.0 && m * m == Dot(r, r)
    ensures Dot(Scale(-f, Div(r, m)), r) == -f * m
    ensures Cross(Scale(-f, Div(r, m)), r) == Zero
  {
    DivIsScale(r, m);
    ScaleScale(-f, 1.0 / m, r);
    DotScaleLeft(-f * (1.0 / m), r, r);
    InverseTimesSquare(m, Dot(r, r));
    CrossScaleSelf(-f * (1.0 / m), r);
  }

  /** Newton's law along the separation `r`, as `GForce` builds it. */
  lemma ForceLaw(sqrt: real -> real, g: real, m1: real, m2: real, r: Vec3)
    requires IsSqrt(sqrt)
    requires Dot(r, r) > 0.0
    ensures Mag(sqrt, r) != 0.0
    ensures var m := Mag(sqrt, r);
            var v := Scale(-ForceMagnitude(g, m1, m2, m), Div(r, m));
            && Mag(sqrt, v) == Abs(g * m1 * m2 / Dot(r, r))
            && Dot(v, r) == -(g * m1 * m2 / Dot(r, r)) * m
            && Cross(v, r) == Zero
  {
    MagPositive(sqrt, r);
    UnitLength(sqrt, r);
    var m := Mag(sqrt, r);
    var f := ForceMagnitude(g, m1, m2, m);
    MagSquared(sqrt, r);
    ForceMagnitudeSquared(g, m1, m2, m, Dot(r, r));
    MagScaledUnit(sqrt, -f, Div(r, m));
    AbsNeg(f);
    AlongUnit(f, r, m);
  }

  /** Without gravity (G = 0) there is no force. */
  lemma GForceWithoutG(sqrt: real -> real, p1: Sphere, p2: Sphere)
    requires IsSqrt(sqrt)
    requires Apart(p1.pos, p2.pos)
    ensures GForce(sqrt, 0.0, p1, p2) == Zero
  {
    var r := Sub(p1.pos, p2.pos);
    MagPositive(sqrt, r);
    var m := Mag(sqrt, r);
    assert ForceMagnitude(0.0, p1.mass, p2.mass, m) == 0.0;
    assert GForce(sqrt, 0.0, p1, p2) == Scale(-0.0, Div(r, m));
  }

  lemma ScaleNegDistributes(f: real, k: real, v: Vec3)
    ensures Scale(f, Scale(k, Neg(v))) == Neg(Scale(f, Scale(k, v)))
  {
  }

  lemma ForceMagnitudeSymmetric(g: real, m1: real, m2: real, rMag: real)
    requires rMag != 0.0
    ensures ForceMagnitude(g, m1, m2, rMag) == ForceMagnitude(g, m2, m1, rMag)
  {
  }

  /** Newton's third law: the force on `p1` by `p2` is minus the force on
      `p2` by `p1`. */
  lemma GForceAntisymmetric(sqrt: real -> real, g: real, p1: Sphere, p2: Sphere)
    requires IsSqrt(sqrt)
    requires Apart(p1.pos, p2.pos)
    ensures Apart(p2.pos, p1.pos)
    ensures GForce(sqrt, g, p1, p2) == Neg(GForce(sqrt, g, p2, p1))
  {
    var r := Sub(p1.pos, p2.pos);
    assert Sub(p2.pos, p1.pos) == Neg(r);
    DotNeg(r);
    MagPositive(sqrt, r);
    var m := Mag(sqrt, r);
    MagNeg(sqrt, r);
    ForceMagnitudeSymmetric(g, p1.mass, p2.mass, m);
    var f := ForceMagnitude(g, p1.mass, p2.mass, m);
    assert GForce(sqrt, g, p1, p2) == Scale(-f, Div(r, m));
    assert GForce(sqrt, g, p2, p1) == Scale(-f, Div(Neg(r), m));
    DivIsScale(r, m);
    DivIsScale(Neg(r), m);
    ScaleNegDistributes(-f, 1.0 / m, r);
  }

  /** One Euler–Cromer update of one body: the momentum takes the impulse
      `force * dt`, then the position moves with the new momentum. */
  function EulerCromer(s: Sphere, force: Vec3, dt: real): (r: Sphere)
    requires s.mass != 0.0
    ensures Sub(r.momentum, s.momentum) == Scale(dt, force)
    ensures Scale(s.mass, Sub(r.pos, s.pos)) == Scale(dt, r.momentum)
    ensures r.radius == s.radius && r.mass == s.mass
  {
    var momentum := Add(s.momentum, Scale(dt, force));
    s.(momentum := momentum, pos := Add(s.pos, Div(Scale(dt, momentum), s.mass)))
  }

  datatype StepError = Coincident | Massless

  /** Body `i` is apart from every other body of the list. */
  predicate Separated(ms: seq<Sphere>, i: int)
    requires 0 <= i < |ms|
  {
    forall j :: 0 <= j < |ms| && j != i ==> Apart(ms[i].pos, ms[j].pos)
  }

  predicate AllSeparated(ms: seq<Sphere>) {
    forall i :: 0 <= i < |ms| ==> Separated(ms, i)
  }

  predicate AllMassive(ms: seq<Sphere>) {
    forall i :: 0 <= i < |ms| ==> ms[i].mass != 0.0
  }

  /** The force of body `j` on body `i`; a body exerts none on itself. */
  function PairForce(sqrt: real -> real, g: real, ms: seq<Sphere>, i: int, j: int): Vec3
    requires IsSqrt(sqrt)
  {
    if 0 <= i < |ms| && 0 <= j < |ms| && i != j && Apart(ms[i].pos, ms[j].pos)
    then GForce(sqrt, g, ms[i], ms[j])
    else Zero
  }

  function Forces(sqrt: real -> real, g: real, ms: seq<Sphere>): (int, int) -> Vec3
    requires IsSqrt(sqrt)
  {
    (i, j) => PairForce(sqrt, g, ms, i, j)
  }

  /** `totforce` of body `i`: the forces of all other bodies, in list order. */
  function TotalForce(sqrt: real -> real, g: real, ms: seq<Sphere>, i: int): Vec3
    requires IsSqrt(sqrt)
  {
    RowSum(Forces(sqrt, g, ms), i, |ms|)
  }

  /** Every body of the list feels a non-zero total force. The force arrows
      of the simulation and of the second draft divide by its length. */
  predicate AllPulled(sqrt: real -> real, g: real, ms: seq<Sphere>)
    requires IsSqrt(sqrt)
  {
    forall i :: 0 <= i < |ms| ==> Dot(TotalForce(sqrt, g, ms, i), TotalForce(sqrt, g, ms, i)) > 0.0
  }

  /** With G = 0 no body feels any force. */
  lemma TotalForceWithoutG(sqrt: real -> real, ms: seq<Sphere>, i: int)
    requires IsSqrt(sqrt)
    ensures TotalForce(sqrt, 0.0, ms, i) == Zero
  {
    var f := Forces(sqrt, 0.0, ms);
    forall j | 0 <= j < |ms|
      ensures f(i, j) == Zero
    {
      if 0 <= i < |ms| && i != j && Apart(ms[i].pos, ms[j].pos) {
        GForceWithoutG(sqrt, ms[i], ms[j]);
      }
    }
    RowSumOfZeros(f, i, |ms|);
  }

  /** A body alone feels no force. */
  lemma LoneBodyUnpulled(sqrt: real -> real, g: real, ms: seq<Sphere>)
    requires IsSqrt(sqrt)
    requires |ms| == 1
    ensures TotalForce(sqrt, g, ms, 0) == Zero
  {
    var f := Forces(sqrt, g, ms);
    assert f(0, 0) == Zero;
    RowSumOfZeros(f, 0, 1);
  }

  /** With G = 0, or with a single body, some body feels no force. */
  lemma NotAllPulled(sqrt: real -> real, g: real, ms: seq<Sphere>)
    requires IsSqrt(sqrt)
    requires 0 < |ms|
    requires g == 0.0 || |ms| == 1
    ensures !AllPulled(sqrt, g, ms)
  {
    if g == 0.0 {
      TotalForceWithoutG(sqrt, ms, 0);
    } else {
      LoneBodyUnpulled(sqrt, g, ms);
    }
    UnpulledBody(sqrt, g, ms, 0);
  }

  lemma UnpulledBody(sqrt: real -> real, g: real, ms: seq<Sphere>, i: int)
    requires IsSqrt(sqrt)
    requires 0 <= i < |ms| && TotalForce(sqrt, g, ms, i) == Zero
    ensures !AllPulled(sqrt, g, ms)
  {
    var t := TotalForce(sqrt, g, ms, i);
    assert Dot(t, t) == 0.0;
  }

  lemma PairForceAntisymmetric(sqrt: real -> real, g: real, ms: seq<Sphere>, i: int, j: int)
    requires IsSqrt(sqrt)
    requires AllSeparated(ms)
    requires 0 <= i < |ms| && 0 <= j < |ms|
    ensures PairForce(sqrt, g, ms, i, j) == Neg(PairForce(sqrt, g, ms, j, i))
  {
    if i == j {
      assert PairForce(sqrt, g, ms, i, j) == Zero;
      NegZero();
    } else {
      assert Separated(ms, i);
      assert Apart(ms[i].pos, ms[j].pos);
      GForceAntisymmetric(sqrt, g, ms[i], ms[j]);
      assert PairForce(sqrt, g, ms, i, j) == GForce(sqrt, g, ms[i], ms[j]);
      assert PairForce(sqrt, g, ms, j, i) == GForce(sqrt, g, ms[j], ms[i]);
    }
  }

  /** On a list whose bodies are pairwise apart the pair forces obey
      Newton's third law. */
  lemma ForcesAntisymmetric(sqrt: real -> real, g: real, ms: seq<Sphere>)
    requires IsSqrt(sqrt)
    requires AllSeparated(ms)
    ensures Antisymmetric(Forces(sqrt, g, ms), |ms|)
  {
    forall i, j | 0 <= i < |ms| && 0 <= j < |ms|
      ensures Forces(sqrt, g, ms)(i, j) == Neg(Forces(sqrt, g, ms)(j, i))
    {
      PairForceAntisymmetric(sqrt, g, ms, i, j);
    }
  }

  function TotalMomentum(ms: seq<Sphere>): Vec3 {
    if |ms| == 0 then Zero else Add(TotalMomentum(ms[..|ms| - 1]), ms[|ms| - 1].momentum)
  }

  /** The corrected step: every body takes the force computed from the
      positions at the start of the step. */
  function SimultaneousStep(sqrt: real -> real, g: real, dt: real, ms: seq<Sphere>): (r: Result<seq<Sphere>, StepError>)
    requires IsSqrt(sqrt)
    ensures r.Ok? <==> AllSeparated(ms) && AllMassive(ms)
    ensures r.Err? ==> (r.error == Coincident <==> !AllSeparated(ms))
    ensures r.Ok? ==> |r.value| == |ms|
  {
    if !AllSeparated(ms) then Err(Coincident)
    else if !AllMassive(ms) then Err(Massless)
    else Ok(seq(|ms|, i requires 0 <= i < |ms| => EulerCromer(ms[i], TotalForce(sqrt, g, ms, i), dt)))
  }

  /** Each body of the corrected step is updated with the force from the
      other bodies' start-of-step positions, and keeps its radius and mass. */
  lemma SimultaneousStepBodies(sqrt: real -> real, g: real, dt: real, ms: seq<Sphere>)
    requires IsSqrt(sqrt)
    requires SimultaneousStep(sqrt, g, dt, ms).Ok?
    ensures var out := SimultaneousStep(sqrt, g, dt, ms).value;
            forall i :: 0 <= i < |ms| ==>
              && Sub(out[i].momentum, ms[i].momentum) == Scale(dt, TotalForce(sqrt, g, ms, i))
              && Scale(ms[i].mass, Sub(out[i].pos, ms[i].pos)) == Scale(dt, out[i].momentum)
              && out[i].radius == ms[i].radius && out[i].mass == ms[i].mass
  {
  }

  lemma TotalMomentumPrefix(ms: seq<Sphere>, k: nat)
    requires 0 < k <= |ms|
    ensures TotalMomentum(ms[..k]) == Add(TotalMomentum(ms[..k - 1]), ms[k - 1].momentum)
  {
    assert ms[..k][..k - 1] == ms[..k - 1];
  }

  /** Regrouping the momenta and impulses of one more body. */
  lemma ImpulseRegroup(before: Vec3, impulses: Vec3, p: Vec3, q: Vec3, j: Vec3)
    requires Sub(q, p) == j
    ensures Add(Add(before, impulses), q) == Add(Add(before, p), Add(impulses, j))
  {
  }

  /** When each of the first `k` bodies receives the impulse of its row of
      `f`, their total momentum grows by the sum of those rows. */
  lemma {:induction false} MomentumAfterImpulses(out: seq<Sphere>, ms: seq<Sphere>, f: (int, int) -> Vec3, k: nat, n: nat)
    requires k <= |out| == |ms|
    requires forall i :: 0 <= i < k ==> Sub(out[i].momentum, ms[i].momentum) == RowSum(f, i, n)
    ensures TotalMomentum(out[..k]) == Add(TotalMomentum(ms[..k]), Total(f, k, n))
  {
    if k == 0 {
      assert out[..k] == [] && ms[..k] == [];
    } else {
      MomentumAfterImpulses(out, ms, f, k - 1, n);
      TotalMomentumPrefix(out, k);
      TotalMomentumPrefix(ms, k);
      ImpulseRegroup(TotalMomentum(ms[..k - 1]), Total(f, k - 1, n),
                     ms[k - 1].momentum, out[k - 1].momentum, RowSum(f, k - 1, n));
    }
  }

  /** The momentum each body gains in the corrected step is its row of
      impulses. */
  lemma SimultaneousImpulses(sqrt: real -> real, g: real, dt: real, ms: seq<Sphere>)
    requires IsSqrt(sqrt)
    requires SimultaneousStep(sqrt, g, dt, ms).Ok?
    ensures var out := SimultaneousStep(sqrt, g, dt, ms).value;
            forall i :: 0 <= i < |ms| ==>
              Sub(out[i].momentum, ms[i].momentum) == RowSum(ScaleAll(dt, Forces(sqrt, g, ms)), i, |ms|)
  {
    var out := SimultaneousStep(sqrt, g, dt, ms).value;
    forall i | 0 <= i < |ms|
      ensures Sub(out[i].momentum, ms[i].momentum) == RowSum(ScaleAll(dt, Forces(sqrt, g, ms)), i, |ms|)
    {
      RowSumScale(dt, Forces(sqrt, g, ms), i, |ms|);
    }
  }

  /** The corrected step conserves total momentum exactly. */
  lemma SimultaneousConservesMomentum(sqrt: real -> real, g: real, dt: real, ms: seq<Sphere>)
    requires IsSqrt(sqrt)
    requires SimultaneousStep(sqrt, g, dt, ms).Ok?
    ensures TotalMomentum(SimultaneousStep(sqrt, g, dt, ms).value) == TotalMomentum(ms)
  {
    var out := SimultaneousStep(sqrt, g, dt, ms).value;
    var n := |ms|;
    var impulses := ScaleAll(dt, Forces(sqrt, g, ms));
    SimultaneousImpulses(sqrt, g, dt, ms);
    MomentumAfterImpulses(out, ms, impulses, n, n);
    ForcesAntisymmetric(sqrt, g, ms);
    ScaleAllAntisymmetric(dt, Forces(sqrt, g, ms), n);
    AntisymmetricTotalZero(impulses, n);
    assert out[..n] == out;
    assert ms[..n] == ms;
    AddZero(TotalMomentum(ms));
  }

  /** The loop as the simulation writes it, from body `k` on: body `k` takes
      the force of the list as it stands, including bodies `0 .. k-1` that this
      pass has already moved, and is updated before body `k + 1` is looked
      at. */
  function SequentialFrom(sqrt: real -> real, g: real, dt: real, ms: seq<Sphere>, k: nat): (r: Result<seq<Sphere>, StepError>)
    requires IsSqrt(sqrt)
    requires k <= |ms|
    ensures r.Ok? ==> |r.value| == |ms| && r.value[..k] == ms[..k]
    decreases |ms| - k
  {
    if k == |ms| then Ok(ms)
    else if !Separated(ms, k) then Err(Coincident)
    else if ms[k].mass == 0.0 then Err(Massless)
    else SequentialFrom(sqrt, g, dt, ms[k := EulerCromer(ms[k], TotalForce(sqrt, g, ms, k), dt)], k + 1)
  }

  /** One pass of the simulation loop over the whole list: body `i` moves
      by the Euler–Cromer rule under the force of the list in which bodies
      before it already hold their new state. */
  function SequentialStep(sqrt: real -> real, g: real, dt: real, ms: seq<Sphere>): (r: Result<seq<Sphere>, StepError>)
    requires IsSqrt(sqrt)
    ensures r.Ok? ==> |r.value| == |ms|
    ensures r.Ok? ==>
              forall i :: 0 <= i < |ms| ==>
                && ms[i].mass != 0.0
                && r.value[i] == EulerCromer(ms[i], TotalForce(sqrt, g, r.value[..i] + ms[i..], i), dt)
  {
    var r := SequentialFrom(sqrt, g, dt, ms, 0);
    if r.Ok? then SequentialFromBodies(sqrt, g, dt, ms, 0); r else r
  }

  /** In the pass as written, body `i` moves under the force of the list in
      which bodies before it already hold their new state and bodies after it
      still hold their old one. */
  lemma {:induction false} SequentialFromBodies(sqrt: real -> real, g: real, dt: real, ms: seq<Sphere>, k: nat)
    requires IsSqrt(sqrt)
    requires k <= |ms|
    requires SequentialFrom(sqrt, g, dt, ms, k).Ok?
    ensures var out := SequentialFrom(sqrt, g, dt, ms, k).value;
            forall i :: k <= i < |ms| ==>
              ms[i].mass != 0.0
              && Separated(out[..i] + ms[i..], i)
              && out[i] == EulerCromer(ms[i], TotalForce(sqrt, g, out[..i] + ms[i..], i), dt)
    decreases |ms| - k
  {
    if k < |ms| {
      var out := SequentialFrom(sqrt, g, dt, ms, k).value;
      var next := ms[k := EulerCromer(ms[k], TotalForce(sqrt, g, ms, k), dt)];
      assert out == SequentialFrom(sqrt, g, dt, next, k + 1).value;
      SequentialFromBodies(sqrt, g, dt, next, k + 1);
      forall i | k <= i < |ms|
        ensures ms[i].mass != 0.0
        ensures Separated(out[..i] + ms[i..], i)
        ensures out[i] == EulerCromer(ms[i], TotalForce(sqrt, g, out[..i] + ms[i..], i), dt)
      {
        if i == k {
          assert Separated(ms, k);
          assert out[..k + 1] == next[..k + 1];
          assert out[..k] == ms[..k];
          assert out[..k] + ms[k..] == ms;
        } else {
          assert next[i] == ms[i];
          assert next[i..] == ms[i..];
          assert out[..i] + next[i..] == out[..i] + ms[i..];
        }
      }
    }
  }

  lemma SequentialStepBodies(sqrt: real -> real, g: real, dt: real, ms: seq<Sphere>)
    requires IsSqrt(sqrt)
    requires SequentialStep(sqrt, g, dt, ms).Ok?
    ensures var out := SequentialStep(sqrt, g, dt, ms).value;
            forall i :: 0 <= i < |ms| ==>
              ms[i].mass != 0.0
              && Separated(out[..i] + ms[i..], i)
              && out[i] == EulerCromer(ms[i], TotalForce(sqrt, g, out[..i] + ms[i..], i), dt)
  {
    SequentialFromBodies(sqrt, g, dt, ms, 0);
  }

  /** With two bodies apart, each one's total force is the other's pull. */
  lemma TwoBodyForceOnFirst(sqrt: real -> real, g: real, ms: seq<Sphere>)
    requires IsSqrt(sqrt)
    requires |ms| == 2 && Apart(ms[0].pos, ms[1].pos)
    ensures TotalForce(sqrt, g, ms, 0) == GForce(sqrt, g, ms[0], ms[1])
  {
    var f := Forces(sqrt, g, ms);
    assert f(0, 0) == Zero;
    assert f(0, 1) == GForce(sqrt, g, ms[0], ms[1]);
    RowSumOfTwo(f, 0);
  }

  lemma TwoBodyForceOnSecond(sqrt: real -> real, g: real, ms: seq<Sphere>)
    requires IsSqrt(sqrt)
    requires |ms| == 2 && Apart(ms[1].pos, ms[0].pos)
    ensures TotalForce(sqrt, g, ms, 1) == GForce(sqrt, g, ms[1], ms[0])
  {
    var f := Forces(sqrt, g, ms);
    assert f(1, 1) == Zero;
    assert f(1, 0) == GForce(sqrt, g, ms[1], ms[0]);
    RowSumOfTwo(f, 1);
  }

  lemma TwoBodyMomentum(a: Sphere, b: Sphere)
    ensures TotalMomentum([a, b]) == Add(a.momentum, b.momentum)
  {
    assert [a, b][..1] == [a];
    assert TotalMomentum([a, b]) == Add(TotalMomentum([a]), b.momentum);
    assert [a][..0] == [];
    assert TotalMomentum([a]) == Add(Zero, a.momentum);
    ZeroAdd(a.momentum);
  }

  /** Two momenta that take the impulses `dt * f` and `dt * h`. */
  lemma ImpulsePair(p: Vec3, q: Vec3, p2: Vec3, q2: Vec3, dt: real, f: Vec3, h: Vec3)
    requires Sub(p2, p) == Scale(dt, f) && Sub(q2, q) == Scale(dt, h)
    ensures Add(p2, q2) == Add(Add(p, q), Scale(dt, Add(f, h)))
  {
  }

  /** The pass as written on two bodies `a` and `b`: `a` moves under the
      pull of `b`, then `b` moves under the pull of the moved `a`. */
  lemma SequentialTwoBodies(sqrt: real -> real, g: real, dt: real, a: Sphere, b: Sphere)
    requires IsSqrt(sqrt)
    requires SequentialStep(sqrt, g, dt, [a, b]).Ok?
    ensures var out := SequentialStep(sqrt, g, dt, [a, b]).value;
            && a.mass != 0.0 && b.mass != 0.0
            && Apart(a.pos, b.pos) && out[0] == EulerCromer(a, GForce(sqrt, g, a, b), dt)
            && Apart(b.pos, out[0].pos) && out[1] == EulerCromer(b, GForce(sqrt, g, b, out[0]), dt)
  {
    var ms := [a, b];
    var out := SequentialStep(sqrt, g, dt, ms).value;
    SequentialStepBodies(sqrt, g, dt, ms);
    assert out[..0] + ms[0..] == ms;
    assert Separated(ms, 0);
    TwoBodyForceOnFirst(sqrt, g, ms);
    var ms1 := [out[0], b];
    assert out[..1] + ms[1..] == ms1;
    assert Separated(ms1, 1);
    TwoBodyForceOnSecond(sqrt, g, ms1);
  }

  /** The momentum the pass as written adds on two bodies: `dt` times the
      pull of `b` on `a` plus the pull of the already-moved `a` on `b`. */
  lemma SequentialTwoBodyMomentum(sqrt: real -> real, g: real, dt: real, a: Sphere, b: Sphere)
    requires IsSqrt(sqrt)
    requires SequentialStep(sqrt, g, dt, [a, b]).Ok?
    ensures var out := SequentialStep(sqrt, g, dt, [a, b]).value;
            && Apart(a.pos, b.pos) && Apart(b.pos, out[0].pos)
            && TotalMomentum(out)
               == Add(TotalMomentum([a, b]), Scale(dt, Add(GForce(sqrt, g, a, b), GForce(sqrt, g, b, out[0]))))
  {
    var out := SequentialStep(sqrt, g, dt, [a, b]).value;
    SequentialTwoBodies(sqrt, g, dt, a, b);
    TwoBodyMomentum(a, b);
    assert out == [out[0], out[1]];
    TwoBodyMomentum(out[0], out[1]);
    ImpulsePair(a.momentum, b.momentum, out[0].momentum, out[1].momentum, dt,
                GForce(sqrt, g, a, b), GForce(sqrt, g, b, out[0]));
  }

  /** Newton's law tells distances apart: equal force magnitudes at the same
      non-zero numerator mean equal squared distances. */
  lemma QuotientAbsInjective(c: real, d1: real, d2: real)
    requires c != 0.0 && 0.0 < d1 && 0.0 < d2
    requires Abs(c / d1) == Abs(c / d2)
    ensures d1 == d2
  {
    var q1 := c / d1;
    var q2 := c / d2;
    assert q1 * d1 == c && q2 * d2 == c;
    if c > 0.0 {
      assert q1 > 0.0 && q2 > 0.0;
    } else {
      assert q1 < 0.0 && q2 < 0.0;
    }
    assert q1 == q2;
    assert q1 * (d1 - d2) == 0.0;
  }

  lemma ProductNonZero(a: real, b: real)
    requires a != 0.0 && b != 0.0
    ensures a * b != 0.0
  {
  }

  lemma ImpulseVanishes(t: Vec3, dt: real, v: Vec3)
    requires dt != 0.0
    requires Add(t, Scale(dt, v)) == t
    ensures v == Zero
  {
  }

  lemma OppositeOfSum(p: Vec3, q: Vec3)
    requires Add(p, q) == Zero
    ensures q == Neg(p)
  {
  }

  lemma NegNeg(p: Vec3)
    ensures Neg(Neg(p)) == p
  {
  }

  /** Two bodies of the same non-zero mass at different distances from a
      massive `b` pull it with different forces. */
  lemma ForceTellsDistance(sqrt: real -> real, g: real, b: Sphere, p: Sphere, q: Sphere)
    requires IsSqrt(sqrt)
    requires g != 0.0 && b.mass != 0.0 && p.mass == q.mass && p.mass != 0.0
    requires Apart(b.pos, p.pos) && Apart(b.pos, q.pos)
    requires GForce(sqrt, g, b, p) == GForce(sqrt, g, b, q)
    ensures Dot(Sub(b.pos, p.pos), Sub(b.pos, p.pos)) == Dot(Sub(b.pos, q.pos), Sub(b.pos, q.pos))
  {
    ProductNonZero(g, b.mass);
    var gb := g * b.mass;
    ProductNonZero(gb, p.mass);
    var c := gb * p.mass;
    var d1 := Dot(Sub(b.pos, p.pos), Sub(b.pos, p.pos));
    var d2 := Dot(Sub(b.pos, q.pos), Sub(b.pos, q.pos));
    assert g * b.mass * p.mass == c;
    assert g * b.mass * q.mass == c;
    assert Mag(sqrt, GForce(sqrt, g, b, p)) == Abs(c / d1);
    assert Mag(sqrt, GForce(sqrt, g, b, q)) == Abs(c / d2);
    QuotientAbsInjective(c, d1, d2);
  }

  /** The pass as written does not conserve momentum on two bodies: with a
      non-zero time step and gravitational constant, once the first body's
      move changes its distance to the second, the total momentum changes.
      The second body feels the first one's pull from its new position, no
      longer the reaction to the pull the first one felt. */
  lemma SequentialStepLosesMomentum(sqrt: real -> real, g: real, dt: real, a: Sphere, b: Sphere)
    requires IsSqrt(sqrt)
    requires dt != 0.0 && g != 0.0
    requires SequentialStep(sqrt, g, dt, [a, b]).Ok?
    requires var moved := SequentialStep(sqrt, g, dt, [a, b]).value[0];
             Dot(Sub(b.pos, moved.pos), Sub(b.pos, moved.pos)) != Dot(Sub(b.pos, a.pos), Sub(b.pos, a.pos))
    ensures TotalMomentum(SequentialStep(sqrt, g, dt, [a, b]).value) != TotalMomentum([a, b])
  {
    var out := SequentialStep(sqrt, g, dt, [a, b]).value;
    var moved := out[0];
    SequentialTwoBodies(sqrt, g, dt, a, b);
    SequentialTwoBodyMomentum(sqrt, g, dt, a, b);
    if TotalMomentum(out) == TotalMomentum([a, b]) {
      var fa := GForce(sqrt, g, a, b);
      var fb := GForce(sqrt, g, b, moved);
      ImpulseVanishes(TotalMomentum([a, b]), dt, Add(fa, fb));
      OppositeOfSum(fa, fb);
      GForceAntisymmetric(sqrt, g, a, b);
      NegNeg(GForce(sqrt, g, b, a));
      assert fb == GForce(sqrt, g, b, a);
      assert moved.mass == a.mass;
      ForceTellsDistance(sqrt, g, b, moved, a);
    }
  }
}

=== FILE: names.dfy ===
/** Planet names: the fixed prefix "Planet " followed by the decimal
    representation of the planet's index, as Python's `str` writes a
    non-negative integer. */
module Names {

  predicate IsDigit(c: char) {
    '0' <= c <= '9'
  }

  predicate AllDigits(s: string) {
    forall k :: 0 <= k < |s| ==> IsDigit(s[k])
  }

  function DigitChar(d: nat): (c: char)
    requires d < 10
    ensures IsDigit(c)
    ensures (c as int) - ('0' as int) == d
  {
    (('0' as int) + d) as char
  }

  function DigitValue(c: char): nat
    requires IsDigit(c)
  {
    (c as int) - ('0' as int)
  }

  /** Decimal digits of `n`, most significant first, with no leading zero. */
  function NatToString(n: nat): (s: string)
    ensures 1 <= |s|
    ensures AllDigits(s)
    ensures |s| > 1 ==> s[0] != '0'
    ensures n < 10 <==> |s| == 1
    decreases n
  {
    if n < 10 then [DigitChar(n)]
    else NatToString(n / 10) + [DigitChar(n % 10)]
  }

  /** The value of a string of decimal digits. */
  function ParseDigits(s: string): nat
    requires AllDigits(s)
    decreases |s|
  {
    if |s| == 0 then 0
    else ParseDigits(s[..|s| - 1]) * 10 + DigitValue(s[|s| - 1])
  }

  /** Reading back the decimal representation gives the number. */
  lemma {:induction false} ParseNatToString(n: nat)
    ensures ParseDigits(NatToString(n)) == n
    decreases n
  {
    var s := NatToString(n);
    if n >= 10 {
      ParseNatToString(n / 10);
      assert s[..|s| - 1] == NatToString(n / 10);
    }
  }

  /** Different numbers have different decimal representations. */
  lemma NatToStringInjective(a: nat, b: nat)
    ensures NatToString(a) == NatToString(b) ==> a == b
  {
    ParseNatToString(a);
    ParseNatToString(b);
  }

  const PlanetPrefix: string := "Planet "

  /** The name `add_planet` gives the planet with the given index: the
      prefix, then digits that read back as the index. */
  function PlanetName(index: nat): (name: string)
    ensures |name| > |PlanetPrefix|
    ensures name[..|PlanetPrefix|] == PlanetPrefix
    ensures AllDigits(name[|PlanetPrefix|..])
    ensures ParseDigits(name[|PlanetPrefix|..]) == index
  {
    var digits := NatToString(index);
    ParseNatToString(index);
    assert (PlanetPrefix + digits)[|PlanetPrefix|..] == digits;
    PlanetPrefix + digits
  }

  /** Planets with different indices get different names. */
  lemma PlanetNameInjective(a: nat, b: nat)
    ensures PlanetName(a) == PlanetName(b) <==> a == b
  {
    if PlanetName(a) == PlanetName(b) {
      assert NatToString(a) == PlanetName(a)[|PlanetPrefix|..];
      assert NatToString(b) == PlanetName(b)[|PlanetPrefix|..];
      NatToStringInjective(a, b);
    }
  }
}

=== FILE: pair_sums.dfy ===
/** Sums of pairwise interactions `f(i, j)` between the bodies `0 .. n-1`, and
    the fact that makes an interaction law conserve momentum: when
    `f(i, j) == -f(j, i)` for every pair and a body does not act on itself,
    the interactions of all bodies sum to zero. */
module PairSums {
  import opened Vectors

  /** Everything that acts on body `i` from bodies `0 .. n-1`, in list order. */
  function RowSum(f: (int, int) -> Vec3, i: int, n: nat): Vec3 {
    if n == 0 then Zero else Add(RowSum(f, i, n - 1), f(i, n - 1))
  }

  /** A row of zero interactions sums to zero. */
  lemma {:induction false} RowSumOfZeros(f: (int, int) -> Vec3, i: int, n: nat)
    requires forall j :: 0 <= j < n ==> f(i, j) == Zero
    ensures RowSum(f, i, n) == Zero
  {
    if n > 0 {
      RowSumOfZeros(f, i, n - 1);
      ZeroAdd(f(i, n - 1));
    }
  }

  /** Between two bodies, a row whose diagonal entry is zero is the one
      interaction with the other body. */
  lemma RowSumOfTwo(f: (int, int) -> Vec3, i: int)
    ensures f(i, 0) == Zero ==> RowSum(f, i, 2) == f(i, 1)
    ensures f(i, 1) == Zero ==> RowSum(f, i, 2) == f(i, 0)
  {
    assert RowSum(f, i, 1) == Add(Zero, f(i, 0));
    ZeroAdd(f(i, 0));
    assert RowSum(f, i, 2) == Add(f(i, 0), f(i, 1));
    ZeroAdd(f(i, 1));
    AddZero(f(i, 0));
  }

  /** Everything that bodies `0 .. m-1` receive from body `j`. */
  function ColSum(f: (int, int) -> Vec3, j: int, m: nat): Vec3 {
    if m == 0 then Zero else Add(ColSum(f, j, m - 1), f(m - 1, j))
  }

  /** The sum of `RowSum(f, i, n)` over the bodies `i` in `0 .. m-1`. */
  function Total(f: (int, int) -> Vec3, m: nat, n: nat): Vec3 {
    if m == 0 then Zero else Add(Total(f, m - 1, n), RowSum(f, m - 1, n))
  }

  ghost predicate Antisymmetric(f: (int, int) -> Vec3, n: nat) {
    forall i, j :: 0 <= i < n && 0 <= j < n ==> f(i, j) == Neg(f(j, i))
  }

  /** Adding one more column to every row adds that column's sum. */
  lemma {:induction false} TotalExtendColumn(f: (int, int) -> Vec3, m: nat, n: nat)
    ensures Total(f, m, n + 1) == Add(Total(f, m, n), ColSum(f, n, m))
  {
    if m > 0 {
      TotalExtendColumn(f, m - 1, n);
    }
  }

  /** Under antisymmetry the column of body `n` is the negated row of body `n`. */
  lemma {:induction false} ColIsNegRow(f: (int, int) -> Vec3, n: nat, k: nat)
    requires Antisymmetric(f, n + 1)
    requires k <= n
    ensures ColSum(f, n, k) == Neg(RowSum(f, n, k))
  {
    if k > 0 {
      ColIsNegRow(f, n, k - 1);
      assert f(k - 1, n) == Neg(f(n, k - 1));
    }
  }

  /** An antisymmetric interaction sums to zero over all pairs. */
  lemma {:induction false} AntisymmetricTotalZero(f: (int, int) -> Vec3, n: nat)
    requires Antisymmetric(f, n)
    ensures Total(f, n, n) == Zero
  {
    if n > 0 {
      var k := n - 1;
      assert Antisymmetric(f, k);
      AntisymmetricTotalZero(f, k);
      TotalExtendColumn(f, k, k);
      ColIsNegRow(f, k, k);
      assert f(k, k) == Neg(f(k, k));
    }
  }

  /** Every interaction multiplied by `k` (forces times a time step are
      impulses). */
  function ScaleAll(k: real, f: (int, int) -> Vec3): (int, int) -> Vec3 {
    (i, j) => Scale(k, f(i, j))
  }

  lemma {:induction false} RowSumScale(k: real, f: (int, int) -> Vec3, i: int, n: nat)
    ensures RowSum(ScaleAll(k, f), i, n) == Scale(k, RowSum(f, i, n))
  {
    if n > 0 {
      RowSumScale(k, f, i, n - 1);
      ScaleAdd(k, RowSum(f, i, n - 1), f(i, n - 1));
    }
  }

  lemma ScaleAllAntisymmetric(k: real, f: (int, int) -> Vec3, n: nat)
    requires Antisymmetric(f, n)
    ensures Antisymmetric(ScaleAll(k, f), n)
  {
    forall i, j | 0 <= i < n && 0 <= j < n
      ensures ScaleAll(k, f)(i, j) == Neg(ScaleAll(k, f)(j, i))
    {
      ScaleNeg(k, f(j, i));
    }
  }
}

=== FILE: particles.dfy ===
/** Bodies of the simulation (`Particle`, `Sun` and `Planet`).

    A body keeps a baseline, the values it was created or edited with
    (`position0`, `velocity0`, `radius`, `mass` and the derived `momentum0`),
    and a live sphere (`pos`, `momentum`, `radius`, `mass`) that the time step
    moves. Colour, texture, trails and the force and velocity arrows are
    rendering state and are not part of the model. */
module Particles {
  import opened Vectors
  import opened Results

  /** The live state of a body: the rendered sphere's physical attributes. */
  datatype Sphere = Sphere(pos: Vec3, momentum: Vec3, radius: real, mass: real)

  /** A sun is emissive and has no name; a planet is lit and has a name. */
  datatype Role = Sun | Planet(name: string)

  datatype Particle = Particle(
    position0: Vec3,
    velocity0: Vec3,
    radius: real,
    mass: real,
    momentum0: Vec3,
    model: Sphere,
    role: Role)

  /** The baseline component of a body that a parameter edit can change, in
      the column order of a saved row. */
  datatype Field = XPos | YPos | ZPos | XVel | YVel | ZVel | Radius | Mass

  const RowWidth: nat := 8

  function Column(f: Field): (k: nat)
    ensures k < RowWidth
  {
    match f
    case XPos => 0
    case YPos => 1
    case ZPos => 2
    case XVel => 3
    case YVel => 4
    case ZVel => 5
    case Radius => 6
    case Mass => 7
  }

  function BaselineValue(p: Particle, f: Field): real {
    match f
    case XPos => p.position0.x
    case YPos => p.position0.y
    case ZPos => p.position0.z
    case XVel => p.velocity0.x
    case YVel => p.velocity0.y
    case ZVel => p.velocity0.z
    case Radius => p.radius
    case Mass => p.mass
  }

  /** The sphere a body shows when it stands at its baseline. */
  function BaselineSphere(p: Particle): Sphere {
    Sphere(p.position0, Scale(p.mass, p.velocity0), p.radius, p.mass)
  }

  /** The body stands at its baseline: its stored momentum is mass times
      velocity and its live sphere is the baseline sphere. */
  predicate AtBaseline(p: Particle) {
    p.momentum0 == Scale(p.mass, p.velocity0) && p.model == BaselineSphere(p)
  }

  /** The baseline of two bodies agrees. */
  predicate SameBaseline(p: Particle, q: Particle) {
    p.position0 == q.position0 && p.velocity0 == q.velocity0
    && p.radius == q.radius && p.mass == q.mass && p.role == q.role
  }

  /** `Particle.__init__`: the live sphere starts at the baseline position with
      momentum `mass * velocity`. */
  function NewParticle(position: Vec3, radius: real, mass: real, velocity: Vec3, role: Role): (p: Particle)
    ensures AtBaseline(p)
    ensures p.position0 == position && p.velocity0 == velocity
    ensures p.radius == radius && p.mass == mass && p.role == role
  {
    var momentum0 := Scale(mass, velocity);
    Particle(position, velocity, radius, mass, momentum0,
             Sphere(position, momentum0, radius, mass), role)
  }

  function NewSun(position: Vec3, radius: real, mass: real, velocity: Vec3): (p: Particle)
    ensures Emissive(p) && Name(p) == None
    ensures AtBaseline(p)
    ensures p.position0 == position && p.velocity0 == velocity
    ensures p.radius == radius && p.mass == mass
  {
    NewParticle(position, radius, mass, velocity, Sun)
  }

  function NewPlanet(position: Vec3, radius: real, mass: real, velocity: Vec3, name: string): (p: Particle)
    ensures !Emissive(p) && Name(p) == Some(name)
    ensures AtBaseline(p)
    ensures p.position0 == position && p.velocity0 == velocity
    ensures p.radius == radius && p.mass == mass
  {
    NewParticle(position, radius, mass, velocity, Planet(name))
  }

  predicate Emissive(p: Particle) {
    p.role.Sun?
  }

  function Name(p: Particle): Option<string> {
    match p.role
    case Sun => None
    case Planet(name) => Some(name)
  }

  /** `reset_model`: recompute `momentum0` from the current baseline and copy
      the baseline into the live sphere. */
  function ResetModel(p: Particle): (r: Particle)
    ensures AtBaseline(r)
    ensures SameBaseline(r, p)
  {
    var momentum0 := Scale(p.mass, p.velocity0);
    p.(momentum0 := momentum0,
       model := p.model.(radius := p.radius, mass := p.mass,
                         pos := p.position0, momentum := momentum0))
  }

  /** A body at its baseline is a fixed point of `ResetModel`; in particular
      resetting twice is resetting once. */
  lemma ResetAtBaseline(p: Particle)
    requires AtBaseline(p)
    ensures ResetModel(p) == p
  {
  }

  lemma ResetIdempotent(p: Particle)
    ensures ResetModel(ResetModel(p)) == ResetModel(p)
  {
    ResetAtBaseline(ResetModel(p));
  }

  /** A reset body is the body built afresh from its baseline. */
  lemma ResetIsRebuild(p: Particle)
    ensures ResetModel(p) == NewParticle(p.position0, p.radius, p.mass, p.velocity0, p.role)
  {
  }

  /** `get_vals`: the baseline flattened into an 8-column row. */
  function GetVals(p: Particle): (row: seq<real>)
    ensures |row| == RowWidth
    ensures forall f: Field :: row[Column(f)] == BaselineValue(p, f)
  {
    [p.position0.x, p.position0.y, p.position0.z,
     p.velocity0.x, p.velocity0.y, p.velocity0.z,
     p.radius, p.mass]
  }

  function RowPosition(row: seq<real>): Vec3
    requires |row| >= RowWidth
  {
    Vec3(row[0], row[1], row[2])
  }

  function RowVelocity(row: seq<real>): Vec3
    requires |row| >= RowWidth
  {
    Vec3(row[3], row[4], row[5])
  }

  /** The planet `button_load` builds from a saved row. */
  function PlanetFromRow(row: seq<real>, name: string): (p: Particle)
    requires |row| >= RowWidth
    ensures AtBaseline(p)
    ensures forall f: Field :: BaselineValue(p, f) == row[Column(f)]
    ensures Name(p) == Some(name)
  {
    NewPlanet(RowPosition(row), row[6], row[7], RowVelocity(row), name)
  }

  /** Encoding a planet's baseline and decoding the row gives back the
      planet, reset to its baseline. */
  lemma RowRoundTrip(p: Particle, name: string)
    requires p.role == Planet(name)
    ensures PlanetFromRow(GetVals(p), name) == ResetModel(p)
  {
  }

  /** Overwrite one baseline component, leaving the live sphere untouched. */
  function WithBaseline(p: Particle, f: Field, v: real): (q: Particle)
    ensures BaselineValue(q, f) == v
    ensures forall g: Field :: g != f ==> BaselineValue(q, g) == BaselineValue(p, g)
    ensures q.model == p.model && q.momentum0 == p.momentum0 && q.role == p.role
  {
    match f
    case XPos => p.(position0 := p.position0.(x := v))
    case YPos => p.(position0 := p.position0.(y := v))
    case ZPos => p.(position0 := p.position0.(z := v))
    case XVel => p.(velocity0 := p.velocity0.(x := v))
    case YVel => p.(velocity0 := p.velocity0.(y := v))
    case ZVel => p.(velocity0 := p.velocity0.(z := v))
    case Radius => p.(radius := v)
    case Mass => p.(mass := v)
  }

  /** Two bodies with the same role and the same value in every field have the
      same baseline. */
  lemma FieldsDetermineBaseline(p: Particle, q: Particle)
    requires p.role == q.role
    requires forall f: Field :: BaselineValue(p, f) == BaselineValue(q, f)
    ensures SameBaseline(p, q)
  {
    assert BaselineValue(p, XPos) == BaselineValue(q, XPos);
    assert BaselineValue(p, YPos) == BaselineValue(q, YPos);
    assert BaselineValue(p, ZPos) == BaselineValue(q, ZPos);
    assert BaselineValue(p, XVel) == BaselineValue(q, XVel);
    assert BaselineValue(p, YVel) == BaselineValue(q, YVel);
    assert BaselineValue(p, ZVel) == BaselineValue(q, ZVel);
    assert BaselineValue(p, Radius) == BaselineValue(q, Radius);
    assert BaselineValue(p, Mass) == BaselineValue(q, Mass);
  }
}

=== FILE: prompts.dfy ===
/** The edit menus of the controller. `add_planet` gives every planet a menu
    whose entries are a field label followed by the planet's name; the chosen
    entry becomes the prompt of the planet's text input, and `menu_edit` and
    `set_value` read back from it which field of which body to edit. */
module Prompts {
  import opened Results
  import opened Names
  import opened Particles

  /** The first menu entry, which selects no field. */
  const ChooseLabel: string := "Choose what to edit for "

  /** The label of each field's menu entry. */
  function Label(f: Field): string {
    match f
    case XPos => "xpos "
    case YPos => "ypos "
    case ZPos => "zpos "
    case XVel => "xvel "
    case YVel => "yvel "
    case ZVel => "zvel "
    case Radius => "rad  "
    case Mass => "mass  "
  }

  /** The four characters the handlers compare the head of a prompt with. */
  function Key(f: Field): string {
    match f
    case XPos => "xpos"
    case YPos => "ypos"
    case ZPos => "zpos"
    case XVel => "xvel"
    case YVel => "yvel"
    case ZVel => "zvel"
    case Radius => "rad "
    case Mass => "mass"
  }

  /** The menu entry that edits field `f` of the planet with the given index. */
  function EditChoice(f: Field, index: nat): string {
    Label(f) + PlanetName(index)
  }

  /** The field a prompt selects: the one whose key is the prompt's first
      four characters, if any. */
  function PromptField(prompt: string): (r: Option<Field>)
    ensures r.Some? ==> |prompt| >= 4 && prompt[..4] == Key(r.value)
    ensures r.None? ==> forall f: Field :: |prompt| < 4 || prompt[..4] != Key(f)
  {
    if |prompt| < 4 then None
    else
      var key := prompt[..4];
      if key == Key(XPos) then Some(XPos)
      else if key == Key(YPos) then Some(YPos)
      else if key == Key(ZPos) then Some(ZPos)
      else if key == Key(XVel) then Some(XVel)
      else if key == Key(YVel) then Some(YVel)
      else if key == Key(ZVel) then Some(ZVel)
      else if key == Key(Radius) then Some(Radius)
      else if key == Key(Mass) then Some(Mass)
      else None
  }

  /** Every field entry of a planet's menu selects its own field. */
  lemma ChoiceFieldRoundTrip(f: Field, index: nat)
    ensures PromptField(EditChoice(f, index)) == Some(f)
  {
    var prompt := EditChoice(f, index);
    assert prompt[..4] == Label(f)[..4];
    match f
    case XPos => assert Label(f)[..4] == Key(f);
    case YPos => assert Label(f)[..4] == Key(f);
    case ZPos => assert Label(f)[..4] == Key(f);
    case XVel => assert Label(f)[..4] == Key(f);
    case YVel => assert Label(f)[..4] == Key(f);
    case ZVel => assert Label(f)[..4] == Key(f);
    case Radius => assert Label(f)[..4] == Key(f);
    case Mass => assert Label(f)[..4] == Key(f);
  }

  /** The first entry of a planet's menu selects no field. */
  lemma ChooseSelectsNoField(index: nat)
    ensures PromptField(ChooseLabel + PlanetName(index)) == None
  {
    var prompt := ChooseLabel + PlanetName(index);
    assert prompt[..4] == "Choo";
  }

  /** The body index as the handlers read it: the value of the prompt's
      last character, which must be a digit. */
  function PromptBody(prompt: string): (r: Option<nat>)
    ensures r.Some? ==> r.value < 10
    ensures r.Some? <==> |prompt| > 0 && IsDigit(prompt[|prompt| - 1])
  {
    if |prompt| == 0 || !IsDigit(prompt[|prompt| - 1]) then None
    else Some(DigitValue(prompt[|prompt| - 1]))
  }

  /** The last decimal digit of `n` is the digit of `n % 10`. */
  lemma LastDigit(n: nat)
    ensures var s := NatToString(n); s[|s| - 1] == DigitChar(n % 10)
  {
  }

  /** Read as the handlers read it, an entry of planet `index` selects body
      `index % 10`: from planet 10 on, it is another body. */
  lemma ChoiceBodyIsLastDigit(f: Field, index: nat)
    ensures PromptBody(EditChoice(f, index)) == Some(index % 10)
    ensures 10 <= index ==> PromptBody(EditChoice(f, index)) != Some(index)
  {
    var prompt := EditChoice(f, index);
    LastDigit(index);
    assert prompt[|prompt| - 1] == NatToString(index)[|NatToString(index)| - 1];
  }

  /** The entries of planet 10 edit the sun, body 0, and those of planet 11
      edit planet 1. */
  lemma PlanetTenEditsSun(f: Field)
    ensures PromptBody(EditChoice(f, 10)) == Some(0)
    ensures PromptBody(EditChoice(f, 11)) == Some(1)
  {
    ChoiceBodyIsLastDigit(f, 10);
    ChoiceBodyIsLastDigit(f, 11);
  }

  /** The planet a prompt names: the number written after the field label
      and the "Planet " prefix. */
  function PromptPlanet(prompt: string): (r: Option<nat>)
    ensures r.Some? ==> PromptField(prompt).Some?
  {
    match PromptField(prompt)
    case None => None
    case Some(f) =>
      var head := Label(f) + PlanetPrefix;
      if |head| < |prompt| && prompt[..|head|] == head && AllDigits(prompt[|head|..])
      then Some(ParseDigits(prompt[|head|..]))
      else None
  }

  /** Every field entry of a planet's menu names that planet, whatever its
      number of digits. */
  lemma PromptPlanetRoundTrip(f: Field, index: nat)
    ensures PromptPlanet(EditChoice(f, index)) == Some(index)
  {
    var prompt := EditChoice(f, index);
    var head := Label(f) + PlanetPrefix;
    ChoiceFieldRoundTrip(f, index);
    ParseNatToString(index);
    assert prompt == head + NatToString(index);
    assert prompt[..|head|] == head;
    assert prompt[|head|..] == NatToString(index);
  }

  /** Entries of different planets, or of different fields, differ. */
  lemma EditChoiceInjective(f: Field, g: Field, a: nat, b: nat)
    ensures EditChoice(f, a) == EditChoice(g, b) <==> f == g && a == b
  {
    if EditChoice(f, a) == EditChoice(g, b) {
      ChoiceFieldRoundTrip(f, a);
      ChoiceFieldRoundTrip(g, b);
      PromptPlanetRoundTrip(f, a);
      PromptPlanetRoundTrip(g, b);
    }
  }
}

=== FILE: results.dfy ===
/** Optional values and outcomes that carry either a value or an error. */
module Results {

  datatype Option<+T> = None | Some(value: T)

  datatype Result<+T, +E> = Ok(value: T) | Err(error: E)
}

=== FILE: solar_system.dfy ===
/** The `SolarSystem` controller: a registry of bodies whose first entry is
    the sun, and the callbacks of its buttons and text inputs.

    Each callback becomes a function from the controller state (and the
    widget's input) to the next state. The rendering side of a callback
    (button labels, trails, arrows, graphs, captions) is not modelled; the
    status line is kept as a `Message`. A time step of the loop in `run` is
    `Tick`. */
module SolarSystem {
  import opened Vectors
  import opened Results
  import opened Particles
  import opened Gravity
  import opened Controls
  import opened Names
  import opened Prompts

  const DeltaTime: real := 0.1
  const InitialG: real := 0.1
  /** The registry accepts planets while it holds fewer than this many bodies. */
  const MaxBodies: nat := 10
  const SunRadius: real := 10.0
  const SunMass: real := 10000.0
  const PlanetRadius: real := 1.0
  const PlanetMass: real := 0.01

  /** The status line under the controls. */
  datatype Message =
    | NoError
    | SystemSaved
    | SaveFailed
    | LoadFailed
    | TooManyPlanets
    | GNotNumber

  datatype System = System(
    particles: seq<Particle>,
    time: real,
    /** Index of the body the camera follows. */
    focus: nat,
    running: bool,
    g: real,
    message: Message,
    /** Whether the load button is still on screen. */
    loadOffered: bool)

  /** The body `add_sun` creates. */
  function TheSun(): (p: Particle)
    ensures Emissive(p) && AtBaseline(p)
    ensures p.position0 == Zero && p.velocity0 == Zero
    ensures p.radius == SunRadius && p.mass == SunMass
  {
    NewSun(Zero, SunRadius, SunMass, Zero)
  }

  /** The registry's invariant: the sun first, with a positive radius and
      mass; planet `i` named after its index; the camera on an existing body;
      the simulation running only with a planet present, so a sun alone has
      never moved off its baseline; and the load button offered only while the
      sun is alone. */
  ghost predicate Valid(s: System) {
    && 1 <= |s.particles|
    && s.particles[0].role == Sun && 0.0 < s.particles[0].radius && 0.0 < s.particles[0].mass
    && (forall i :: 1 <= i < |s.particles| ==> s.particles[i].role == Planet(PlanetName(i)))
    && s.focus < |s.particles|
    && (s.running ==> 1 < |s.particles|)
    && (|s.particles| == 1 ==> AtBaseline(s.particles[0]))
    && (s.loadOffered ==> |s.particles| == 1)
  }

  /** `add_sun`: append the sun to the registry. */
  function AddSun(ps: seq<Particle>): (r: seq<Particle>)
    ensures |r| == |ps| + 1 && r[..|ps|] == ps
    ensures SameBaseline(r[|ps|], TheSun()) && AtBaseline(r[|ps|])
  {
    var sun := TheSun();
    assert (ps + [sun])[|ps|] == sun;
    ps + [sun]
  }

  /** `SolarSystem.__init__`: time zero, camera on the sun, stopped, the
      class's default G, and the sun alone in the registry. */
  function Init(): (s: System)
    ensures Valid(s)
    ensures s.particles == [TheSun()]
    ensures s.time == 0.0 && s.focus == 0 && !s.running && s.g == InitialG
    ensures s.message == NoError && s.loadOffered
  {
    LoneSunValid(TheSun());
    System(AddSun([]), 0.0, 0, false, InitialG, NoError, true)
  }

  lemma LoneSunValid(sun: Particle)
    requires sun.role == Sun && 0.0 < sun.radius && 0.0 < sun.mass && AtBaseline(sun)
    ensures Valid(System([sun], 0.0, 0, false, InitialG, NoError, true))
  {
  }

  /** `button_startstop`: toggles the simulation, but only once a planet is
      present. */
  function ButtonStartStop(s: System): (r: System)
    requires Valid(s)
    ensures Valid(r)
    ensures r.running != s.running <==> 1 < |s.particles|
    ensures r == s.(running := r.running)
  {
    if 1 < |s.particles| then s.(running := !s.running) else s
  }

  /** Pressing start/stop twice changes nothing. */
  lemma ButtonStartStopTwice(s: System)
    requires Valid(s)
    ensures ButtonStartStop(ButtonStartStop(s)) == s
  {
  }

  /** `camera_follow`: the camera moves to the next body, cyclically. */
  function CameraFollow(s: System): (r: System)
    requires Valid(s)
    ensures Valid(r)
    ensures r.focus == (s.focus + 1) % |s.particles|
    ensures r == s.(focus := r.focus)
  {
    s.(focus := NextFocus(s.focus, |s.particles|))
  }

  /** `winput_g`: an integer or decimal input becomes the new G; anything
      else leaves G alone and reports the error. */
  function WinputG(s: System, n: Number): (r: System)
    requires Valid(s)
    ensures Valid(r)
    ensures n.NotNumber? <==> r.g == s.g && r.message == GNotNumber
    ensures !n.NotNumber? ==> r.g == NumberValue(n) && r.message == NoError
    ensures r == s.(g := r.g, message := r.message)
  {
    if n.NotNumber? then s.(message := GNotNumber)
    else s.(g := NumberValue(n), message := NoError)
  }

  /** Every body reset to its baseline. */
  function ResetAll(ps: seq<Particle>): (r: seq<Particle>)
    ensures |r| == |ps|
    ensures forall i :: 0 <= i < |ps| ==> AtBaseline(r[i]) && SameBaseline(r[i], ps[i])
    ensures forall i :: 0 <= i < |ps| ==> r[i] == ResetModel(ps[i])
  {
    seq(|ps|, i requires 0 <= i < |ps| => ResetModel(ps[i]))
  }

  /** `button_reset`: with a planet present, every body goes back to its
      baseline and the simulation stops. The clock is not reset. */
  function ButtonReset(s: System): (r: System)
    requires Valid(s)
    ensures Valid(r)
    ensures |s.particles| <= 1 ==> r == s
    ensures 1 < |s.particles| ==>
              && !r.running
              && |r.particles| == |s.particles|
              && (forall i :: 0 <= i < |s.particles| ==>
                    AtBaseline(r.particles[i]) && SameBaseline(r.particles[i], s.particles[i]))
    ensures r.time == s.time && r.focus == s.focus && r.g == s.g
    ensures r.message == s.message && r.loadOffered == s.loadOffered
  {
    if 1 < |s.particles| then s.(particles := ResetAll(s.particles), running := false) else s
  }

  /** Resetting twice is resetting once. */
  lemma ButtonResetIdempotent(s: System)
    requires Valid(s)
    ensures ButtonReset(ButtonReset(s)) == ButtonReset(s)
  {
    var r := ButtonReset(s);
    if 1 < |s.particles| {
      forall i | 0 <= i < |r.particles|
        ensures ResetModel(r.particles[i]) == r.particles[i]
      {
        ResetAtBaseline(r.particles[i]);
      }
      assert ResetAll(r.particles) == r.particles;
    }
  }

  /** `add_planet`: append a planet named after `index`. */
  function AddPlanet(s: System, index: nat, position: Vec3, velocity: Vec3, radius: real, mass: real): (r: System)
    ensures |r.particles| == |s.particles| + 1 && r.particles[..|s.particles|] == s.particles
    ensures var p := r.particles[|s.particles|];
            && AtBaseline(p) && Name(p) == Some(PlanetName(index)) && p.role == Planet(PlanetName(index))
            && p.position0 == position && p.velocity0 == velocity && p.radius == radius && p.mass == mass
    ensures r == s.(particles := r.particles)
  {
    s.(particles := s.particles + [NewPlanet(position, radius, mass, velocity, PlanetName(index))])
  }

  lemma DivTimes(a: real, x: real)
    requires x != 0.0
    ensures (a / x) * x == a
  {
  }

  lemma MagOnAxis(sqrt: real -> real, x: real)
    requires IsSqrt(sqrt)
    requires 0.0 <= x
    ensures Mag(sqrt, Vec3(x, 0.0, 0.0)) == x
  {
    assert Dot(Vec3(x, 0.0, 0.0), Vec3(x, 0.0, 0.0)) == x * x;
    SqrtOfSquare(sqrt, x);
  }

  /** How far out `button_add` starts a planet when `planets` planets are
      already present: one more sun radius than the previous planet. */
  function OrbitRadius(sunRadius: real, planets: nat): (x: real)
    ensures 0.0 < sunRadius ==> 0.0 < x
  {
    sunRadius * (planets + 2) as real
  }

  /** The speed of a circular orbit of radius `x` around mass `m`: the
      non-negative number whose square is `g * m / x`, when that is not
      negative. */
  function OrbitSpeed(sqrt: real -> real, g: real, m: real, x: real): (v: real)
    requires IsSqrt(sqrt)
    requires x != 0.0
    ensures 0.0 <= g * m / x ==> 0.0 <= v && v * v == g * m / x
  {
    var q := g * m / x;
    if 0.0 <= q then SqrtFacts(sqrt, q); sqrt(q) else sqrt(q)
  }

  /** A circular-orbit speed squared, times the radius, is G times the
      central mass, whenever G is not negative. */
  lemma OrbitSpeedCircular(sqrt: real -> real, g: real, m: real, x: real)
    requires IsSqrt(sqrt)
    requires 0.0 <= g && 0.0 < m && 0.0 < x
    ensures 0.0 <= OrbitSpeed(sqrt, g, m, x)
    ensures OrbitSpeed(sqrt, g, m, x) * OrbitSpeed(sqrt, g, m, x) * x == g * m
  {
    var gm := g * m;
    assert 0.0 <= gm;
    assert 0.0 <= gm / x;
    DivTimes(gm, x);
  }

  /** The planet `button_add` creates when `planets` planets are present: on
      the x axis at the next orbit radius, moving along z at the speed of a
      circular orbit around the sun at that distance. */
  function OrbitingPlanet(sqrt: real -> real, g: real, sun: Particle, planets: nat): (p: Particle)
    requires IsSqrt(sqrt)
    requires 0.0 < sun.radius
    ensures AtBaseline(p) && p.role == Planet(PlanetName(planets + 1))
    ensures p.position0 == Vec3(OrbitRadius(sun.radius, planets), 0.0, 0.0)
    ensures p.velocity0 == Vec3(0.0, 0.0, OrbitSpeed(sqrt, g, sun.mass, OrbitRadius(sun.radius, planets)))
    ensures p.radius == PlanetRadius && p.mass == PlanetMass
  {
    var x := OrbitRadius(sun.radius, planets);
    var position := Vec3(x, 0.0, 0.0);
    MagOnAxis(sqrt, x);
    var velocity := Vec3(0.0, 0.0, OrbitSpeed(sqrt, g, sun.mass, Mag(sqrt, position)));
    NewPlanet(position, PlanetRadius, PlanetMass, velocity, PlanetName(planets + 1))
  }

  /** `button_add`: with fewer than `MaxBodies` bodies, reset the simulation,
      withdraw the load button and add the next orbiting planet. With the
      registry full, only the error is reported. */
  function ButtonAdd(sqrt: real -> real, s: System): (r: System)
    requires IsSqrt(sqrt)
    requires Valid(s)
    ensures Valid(r)
    ensures MaxBodies <= |s.particles| ==> r == s.(message := TooManyPlanets)
    ensures |s.particles| < MaxBodies ==>
              && |r.particles| == |s.particles| + 1
              && !r.running && !r.loadOffered && r.message == NoError
              && (forall i :: 0 <= i < |s.particles| ==>
                    AtBaseline(r.particles[i]) && SameBaseline(r.particles[i], s.particles[i]))
              && r.particles[|s.particles|] == OrbitingPlanet(sqrt, s.g, s.particles[0], |s.particles| - 1)
    ensures r.time == s.time && r.focus == s.focus && r.g == s.g
  {
    if |s.particles| < MaxBodies then
      var reset := ButtonReset(s);
      var planet := OrbitingPlanet(sqrt, s.g, s.particles[0], |s.particles| - 1);
      reset.(particles := reset.particles + [planet], running := false,
             loadOffered := false, message := NoError)
    else
      s.(message := TooManyPlanets)
  }

  /** The planet `button_add` appends: named after its index, on the x axis
      `n + 2` sun radii out when `n` planets are present, with radius 1 and
      mass 0.01, and with a velocity along z whose square times the orbit
      radius is G times the sun's mass (a circular orbit), as long as G is not
      negative. */
  lemma ButtonAddPlanet(sqrt: real -> real, s: System)
    requires IsSqrt(sqrt)
    requires Valid(s)
    requires |s.particles| < MaxBodies
    ensures var p := ButtonAdd(sqrt, s).particles[|s.particles|];
            var sun := s.particles[0];
            var x := sun.radius * (|s.particles| + 1) as real;
            && Name(p) == Some(PlanetName(|s.particles|))
            && p.position0 == Vec3(x, 0.0, 0.0)
            && p.velocity0.x == 0.0 && p.velocity0.y == 0.0
            && (0.0 <= s.g ==> 0.0 <= p.velocity0.z && p.velocity0.z * p.velocity0.z * x == s.g * sun.mass)
            && p.radius == PlanetRadius && p.mass == PlanetMass
  {
    var sun := s.particles[0];
    var x := OrbitRadius(sun.radius, |s.particles| - 1);
    if 0.0 <= s.g {
      OrbitSpeedCircular(sqrt, s.g, sun.mass, x);
    }
  }

  /** The planet `button_add` appends is the one `add_planet` builds from its
      position, velocity, radius and mass, under the next index, after the
      reset. */
  lemma ButtonAddIsAddPlanet(sqrt: real -> real, s: System)
    requires IsSqrt(sqrt)
    requires Valid(s)
    requires |s.particles| < MaxBodies
    ensures var p := ButtonAdd(sqrt, s).particles[|s.particles|];
            ButtonAdd(sqrt, s).particles
              == AddPlanet(ButtonReset(s), |s.particles|, p.position0, p.velocity0, PlanetRadius, PlanetMass).particles
  {
    var r := ButtonAdd(sqrt, s);
    var p := r.particles[|s.particles|];
    var a := AddPlanet(ButtonReset(s), |s.particles|, p.position0, p.velocity0, PlanetRadius, PlanetMass);
    var q := a.particles[|s.particles|];
    ResetAtBaseline(p);
    ResetIsRebuild(p);
    ResetAtBaseline(q);
    ResetIsRebuild(q);
    assert p == q;
    assert r.particles == a.particles[..|s.particles|] + [q];
  }

  /** Pressing the add button `k` times. */
  function AddTimes(sqrt: real -> real, s: System, k: nat): (r: System)
    requires IsSqrt(sqrt)
    requires Valid(s)
    ensures Valid(r)
  {
    if k == 0 then s else ButtonAdd(sqrt, AddTimes(sqrt, s, k - 1))
  }

  /** However often the add button is pressed, a registry that started with at
      most `MaxBodies` bodies never holds more. */
  lemma {:induction false} AddTimesBounded(sqrt: real -> real, s: System, k: nat)
    requires IsSqrt(sqrt)
    requires Valid(s) && |s.particles| <= MaxBodies
    ensures |AddTimes(sqrt, s, k).particles| <= MaxBodies
  {
    if k > 0 {
      AddTimesBounded(sqrt, s, k - 1);
    }
  }

  predicate IsPosition(f: Field) {
    f == XPos || f == YPos || f == ZPos
  }

  /** Whether `set_value` writes `v` into field `f` of body `p`: a position
      component only if the edited position is not the origin (its magnitude
      is positive exactly when its squared length is, see `MagFacts`), the
      mass only if positive, anything else always. */
  predicate EditAccepted(p: Particle, f: Field, v: real) {
    if IsPosition(f) then
      var q := WithBaseline(p, f, v);
      Dot(q.position0, q.position0) > 0.0
    else if f == Mass then 0.0 < v
    else true
  }

  /** `set_value` accepts a position edit exactly when the edited position
      (the old one with component `f` replaced by `v`) has a positive
      magnitude, a mass edit exactly when the new mass is positive, and any
      other edit always. */
  lemma EditAcceptedMeaning(sqrt: real -> real, p: Particle, f: Field, v: real)
    requires IsSqrt(sqrt)
    ensures f == XPos ==> WithBaseline(p, f, v).position0 == Vec3(v, p.position0.y, p.position0.z)
    ensures f == YPos ==> WithBaseline(p, f, v).position0 == Vec3(p.position0.x, v, p.position0.z)
    ensures f == ZPos ==> WithBaseline(p, f, v).position0 == Vec3(p.position0.x, p.position0.y, v)
    ensures IsPosition(f) ==> (EditAccepted(p, f, v) <==> Mag(sqrt, WithBaseline(p, f, v).position0) > 0.0)
    ensures f == Mass ==> (EditAccepted(p, f, v) <==> 0.0 < v)
    ensures !IsPosition(f) && f != Mass ==> EditAccepted(p, f, v)
  {
    MagFacts(sqrt, WithBaseline(p, f, v).position0);
  }

  /** The body after one edit, before the reset that follows it: field `f`
      holds `v` if the edit is accepted and its old value otherwise; no other
      field, and neither the live sphere nor the name, changes. */
  function EditBody(p: Particle, f: Field, v: real): (q: Particle)
    ensures BaselineValue(q, f) == (if EditAccepted(p, f, v) then v else BaselineValue(p, f))
    ensures forall g: Field :: g != f ==> BaselineValue(q, g) == BaselineValue(p, g)
    ensures q.model == p.model && q.momentum0 == p.momentum0 && q.role == p.role
  {
    if EditAccepted(p, f, v) then WithBaseline(p, f, v) else p
  }

  /** `set_value` for planet `index` and field `f`: a non-numeric input
      changes nothing; a numeric one is written if `EditAccepted` allows it,
      and then the simulation is reset. */
  function SetValue(s: System, index: nat, f: Field, n: Number): (r: System)
    requires Valid(s)
    requires 1 <= index < |s.particles|
    ensures Valid(r)
    ensures n.NotNumber? ==> r == s
    ensures !n.NotNumber? ==>
              var v := NumberValue(n);
              var before := s.particles[index];
              && |r.particles| == |s.particles| && !r.running
              && BaselineValue(r.particles[index], f)
                   == (if EditAccepted(before, f, v) then v else BaselineValue(before, f))
              && (forall g: Field :: g != f ==> BaselineValue(r.particles[index], g) == BaselineValue(before, g))
              && r.particles[index].role == before.role
              && (forall j :: 0 <= j < |s.particles| && j != index ==> SameBaseline(r.particles[j], s.particles[j]))
              && (forall j :: 0 <= j < |s.particles| ==> AtBaseline(r.particles[j]))
    ensures r.time == s.time && r.focus == s.focus && r.g == s.g
    ensures r.message == s.message && r.loadOffered == s.loadOffered
  {
    if n.NotNumber? then s
    else
      var edited := EditBody(s.particles[index], f, NumberValue(n));
      ButtonReset(s.(particles := s.particles[index := edited]))
  }

  /** Edits keep every planet off the origin and every mass positive: a body
      that satisfies both before an edit satisfies both after it. */
  lemma SetValueKeepsBodiesPhysical(s: System, index: nat, f: Field, n: Number)
    requires Valid(s)
    requires 1 <= index < |s.particles|
    requires Dot(s.particles[index].position0, s.particles[index].position0) > 0.0
    requires 0.0 < s.particles[index].mass
    ensures var q := SetValue(s, index, f, n).particles[index];
            Dot(q.position0, q.position0) > 0.0 && 0.0 < q.mass
  {
    if !n.NotNumber? {
      var v := NumberValue(n);
      var p := s.particles[index];
      var e := EditBody(p, f, v);
      assert SetValue(s, index, f, n).particles[index] == ResetModel(e);
      if EditAccepted(p, f, v) && IsPosition(f) {
        var w := WithBaseline(p, f, v);
        FieldsDetermineBaseline(e, w);
        assert Dot(e.position0, e.position0) > 0.0;
      } else if EditAccepted(p, f, v) {
        assert e.position0 == p.position0;
      }
    }
  }

  /** `set_value` reached through a planet's text input, with the body taken
      to be the planet the prompt names (`Prompts.PromptPlanet`) rather than
      the value of its last character. A prompt that names no field or no
      registered planet edits nothing. */
  function SetValueFromPrompt(s: System, prompt: string, n: Number): (r: Option<System>)
    requires Valid(s)
    ensures r.Some? ==> Valid(r.value)
    ensures r.Some? ==> r.value.time == s.time && r.value.g == s.g && r.value.focus == s.focus
    ensures r.Some? ==> PromptField(prompt).Some? && PromptPlanet(prompt).Some?
  {
    match PromptPlanet(prompt)
    case None => None
    case Some(i) =>
      if 1 <= i < |s.particles| then Some(SetValue(s, i, PromptField(prompt).value, n))
      else None
  }

  /** The entry for field `f` in the menu of a registered planet edits field
      `f` of that planet, however many digits its index has. */
  lemma SetValueFromChoice(s: System, f: Field, i: nat, n: Number)
    requires Valid(s)
    requires 1 <= i < |s.particles|
    ensures SetValueFromPrompt(s, EditChoice(f, i), n) == Some(SetValue(s, i, f, n))
  {
    ChoiceFieldRoundTrip(f, i);
    PromptPlanetRoundTrip(f, i);
  }

  /** `button_save`: the saved rows are the baselines of the planets, in
      registry order; the sun is not saved. */
  function SaveRows(s: System): (rows: seq<seq<real>>)
    requires Valid(s)
    ensures |rows| == |s.particles| - 1
    ensures forall i :: 0 <= i < |rows| ==> rows[i] == GetVals(s.particles[i + 1])
  {
    seq(|s.particles| - 1, i requires 0 <= i < |s.particles| - 1 => GetVals(s.particles[i + 1]))
  }

  /** `button_save`'s effect on the controller: only the status line, which
      depends on whether the file could be written. */
  function ButtonSave(s: System, written: bool): (r: System)
    requires Valid(s)
    ensures Valid(r)
    ensures r.message == (if written then SystemSaved else SaveFailed)
    ensures r == s.(message := r.message)
  {
    s.(message := if written then SystemSaved else SaveFailed)
  }

  datatype LoadError = ShortRow

  predicate AllRowsWide(rows: seq<seq<real>>) {
    forall i :: 0 <= i < |rows| ==> RowWidth <= |rows[i]|
  }

  /** The planets `button_load` builds from the rows: row `i` becomes planet
      `i + 1`. */
  function LoadedPlanets(rows: seq<seq<real>>): (ps: seq<Particle>)
    requires AllRowsWide(rows)
    ensures |ps| == |rows|
    ensures forall i :: 0 <= i < |rows| ==> ps[i] == PlanetFromRow(rows[i], PlanetName(i + 1))
  {
    seq(|rows|, i requires 0 <= i < |rows| => PlanetFromRow(rows[i], PlanetName(i + 1)))
  }

  lemma LoadedValid(s: System, rows: seq<seq<real>>)
    requires Valid(s) && s.loadOffered && AllRowsWide(rows)
    ensures Valid(s.(particles := s.particles + LoadedPlanets(rows), loadOffered := false, message := NoError))
  {
    var ps := s.particles + LoadedPlanets(rows);
    assert ps[0] == s.particles[0];
    forall i | 1 <= i < |ps|
      ensures ps[i].role == Planet(PlanetName(i))
    {
      assert ps[i] == PlanetFromRow(rows[i - 1], PlanetName(i));
    }
  }

  /** `button_load`, offered while the sun is alone: an unreadable file only
      sets the error; otherwise the button is withdrawn and each row becomes a
      planet, with no limit on how many. A row with fewer than eight values
      makes the callback fail. */
  function ButtonLoad(s: System, file: Option<seq<seq<real>>>): (r: Result<System, LoadError>)
    requires Valid(s) && s.loadOffered
    ensures r.Ok? ==> Valid(r.value)
    ensures file.None? ==> r == Ok(s.(message := LoadFailed))
    ensures file.Some? ==> (r.Ok? <==> AllRowsWide(file.value))
    ensures file.Some? && r.Ok? ==>
              && !r.value.loadOffered && r.value.message == NoError
              && r.value.particles == s.particles + LoadedPlanets(file.value)
    ensures r.Ok? ==>
              && r.value.time == s.time && r.value.focus == s.focus
              && r.value.g == s.g && r.value.running == s.running
  {
    match file
    case None => Ok(s.(message := LoadFailed))
    case Some(rows) =>
      if !AllRowsWide(rows) then Err(ShortRow)
      else
        LoadedValid(s, rows);
        Ok(s.(particles := s.particles + LoadedPlanets(rows), loadOffered := false, message := NoError))
  }

  /** The loop of `button_load` as written: `add_planet` once per row, in
      order, row `i` under index `i + 1`. */
  function AddRows(s: System, rows: seq<seq<real>>): System
    requires AllRowsWide(rows)
    decreases |rows|
  {
    if |rows| == 0 then s
    else
      var k := |rows| - 1;
      var row := rows[k];
      AddPlanet(AddRows(s, rows[..k]), k + 1, RowPosition(row), RowVelocity(row), row[6], row[7])
  }

  /** Appending `LoadedPlanets` is the `add_planet` loop of `button_load`. */
  lemma {:induction false} AddRowsIsLoadedPlanets(s: System, rows: seq<seq<real>>)
    requires AllRowsWide(rows)
    ensures AddRows(s, rows) == s.(particles := s.particles + LoadedPlanets(rows))
    decreases |rows|
  {
    if |rows| > 0 {
      var k := |rows| - 1;
      AddRowsStep(s, rows);
      AddRowsIsLoadedPlanets(s, rows[..k]);
      LoadedPlanetsSnoc(rows);
      var before := AddRows(s, rows[..k]);
      var prefix := LoadedPlanets(rows[..k]);
      var planet := PlanetFromRow(rows[k], PlanetName(k + 1));
      assert before.particles == s.particles + prefix;
      assert LoadedPlanets(rows) == prefix + [planet];
      assert before.particles + [planet] == s.particles + LoadedPlanets(rows);
    }
  }

  /** The last row adds the planet `button_load` builds from it. */
  lemma AddRowsStep(s: System, rows: seq<seq<real>>)
    requires AllRowsWide(rows) && 0 < |rows|
    ensures AllRowsWide(rows[..|rows| - 1])
    ensures var before := AddRows(s, rows[..|rows| - 1]);
            AddRows(s, rows)
              == before.(particles := before.particles + [PlanetFromRow(rows[|rows| - 1], PlanetName(|rows|))])
  {
    var k := |rows| - 1;
    assert AllRowsWide(rows[..k]);
  }

  lemma LoadedPlanetsSnoc(rows: seq<seq<real>>)
    requires AllRowsWide(rows) && 0 < |rows|
    ensures AllRowsWide(rows[..|rows| - 1])
    ensures LoadedPlanets(rows)
              == LoadedPlanets(rows[..|rows| - 1]) + [PlanetFromRow(rows[|rows| - 1], PlanetName(|rows|))]
  {
    var k := |rows| - 1;
    assert AllRowsWide(rows[..k]);
    var a := LoadedPlanets(rows);
    var b := LoadedPlanets(rows[..k]) + [PlanetFromRow(rows[k], PlanetName(k + 1))];
    forall i | 0 <= i < |a|
      ensures a[i] == b[i]
    {
      if i < k {
        assert rows[..k][i] == rows[i];
      }
    }
  }

  /** Saving a registry and loading the rows into a fresh one gives back every
      planet, with its name, reset to its baseline. */
  lemma SaveLoadRoundTrip(s: System, blank: System)
    requires Valid(s)
    requires Valid(blank) && blank.loadOffered
    ensures AllRowsWide(SaveRows(s))
    ensures var r := ButtonLoad(blank, Some(SaveRows(s)));
            && r.Ok?
            && |r.value.particles| == |s.particles|
            && r.value.particles[0] == blank.particles[0]
            && (forall i :: 1 <= i < |s.particles| ==> r.value.particles[i] == ResetModel(s.particles[i]))
  {
    var rows := SaveRows(s);
    LoadedValid(blank, rows);
    var r := ButtonLoad(blank, Some(rows)).value;
    assert r.particles == blank.particles + LoadedPlanets(rows);
    forall i | 1 <= i < |s.particles|
      ensures r.particles[i] == ResetModel(s.particles[i])
    {
      LoadedRow(s, rows, blank.particles, i);
    }
  }

  lemma LoadedRow(s: System, rows: seq<seq<real>>, sun: seq<Particle>, i: nat)
    requires Valid(s) && |sun| == 1
    requires rows == SaveRows(s)
    requires 1 <= i < |s.particles|
    ensures AllRowsWide(rows)
    ensures (sun + LoadedPlanets(rows))[i] == ResetModel(s.particles[i])
  {
    assert (sun + LoadedPlanets(rows))[i] == PlanetFromRow(rows[i - 1], PlanetName(i));
    RowRoundTrip(s.particles[i], PlanetName(i));
  }

  /** The live spheres of the bodies. */
  function Spheres(ps: seq<Particle>): (ms: seq<Sphere>)
    ensures |ms| == |ps|
    ensures forall i :: 0 <= i < |ps| ==> ms[i] == ps[i].model
  {
    seq(|ps|, i requires 0 <= i < |ps| => ps[i].model)
  }

  /** The bodies with their live spheres replaced. */
  function WithSpheres(ps: seq<Particle>, ms: seq<Sphere>): (r: seq<Particle>)
    requires |ms| == |ps|
    ensures |r| == |ps|
    ensures forall i :: 0 <= i < |ps| ==> r[i] == ps[i].(model := ms[i])
  {
    seq(|ps|, i requires 0 <= i < |ps| => ps[i].(model := ms[i]))
  }

  /** Why a pass of the loop fails: the step itself divides by zero, or a
      body feels no force and its force arrow divides by the force's length. */
  datatype TickError = Step(error: StepError) | ArrowUndefined

  /** Every body's velocity arrow can be drawn. `update_velocity_arrow`
      skips a body with zero mass or zero momentum and otherwise takes the
      logarithm of momentum / mass, which a negative mass makes negative. */
  predicate VelocityArrowsDefined(ms: seq<Sphere>) {
    forall i :: 0 <= i < |ms| && ms[i].mass < 0.0 ==> Dot(ms[i].momentum, ms[i].momentum) == 0.0
  }

  /** One pass of the loop in `run`: while running, every body takes one
      Euler–Cromer step of `DeltaTime` under the current G and the clock
      advances; while stopped nothing changes. The step computes every force
      from the positions at the start of the step (see `SimultaneousStep`).
      A body whose total force is zero, or a body of negative mass that is
      moving after the step, stops the loop: its force or velocity arrow is
      undefined. */
  function Tick(sqrt: real -> real, s: System): (r: Result<System, TickError>)
    requires IsSqrt(sqrt)
    requires Valid(s)
    ensures r.Ok? ==> Valid(r.value)
    ensures !s.running ==> r == Ok(s)
    ensures s.running ==>
              (r.Ok? <==> && SimultaneousStep(sqrt, s.g, DeltaTime, Spheres(s.particles)).Ok?
                          && AllPulled(sqrt, s.g, Spheres(s.particles))
                          && VelocityArrowsDefined(SimultaneousStep(sqrt, s.g, DeltaTime, Spheres(s.particles)).value))
    ensures s.running && r.Err? ==>
              (r.error == ArrowUndefined <==> SimultaneousStep(sqrt, s.g, DeltaTime, Spheres(s.particles)).Ok?)
    ensures s.running && r.Ok? ==>
              && Spheres(r.value.particles) == SimultaneousStep(sqrt, s.g, DeltaTime, Spheres(s.particles)).value
              && r.value.time == s.time + DeltaTime
              && |r.value.particles| == |s.particles|
              && (forall i :: 0 <= i < |s.particles| ==> SameBaseline(r.value.particles[i], s.particles[i]))
              && r.value == s.(particles := r.value.particles, time := r.value.time)
  {
    if !s.running then Ok(s)
    else
      match SimultaneousStep(sqrt, s.g, DeltaTime, Spheres(s.particles))
      case Err(e) => Err(Step(e))
      case Ok(ms) =>
        if !AllPulled(sqrt, s.g, Spheres(s.particles)) || !VelocityArrowsDefined(ms) then Err(ArrowUndefined)
        else Ok(s.(particles := WithSpheres(s.particles, ms), time := s.time + DeltaTime))
  }

  /** With G set to 0 the running simulation cannot take a step: no body
      feels a force. */
  lemma TickFailsWithoutG(sqrt: real -> real, s: System)
    requires IsSqrt(sqrt)
    requires Valid(s) && s.running && s.g == 0.0
    ensures Tick(sqrt, s).Err?
  {
    NotAllPulled(sqrt, s.g, Spheres(s.particles));
  }

  /** A body of negative mass that is still moving after the step stops the
      loop, since its velocity arrow takes the logarithm of a negative
      number. */
  lemma NegativeMassTickFails(sqrt: real -> real, s: System, i: nat)
    requires IsSqrt(sqrt)
    requires Valid(s) && s.running
    requires SimultaneousStep(sqrt, s.g, DeltaTime, Spheres(s.particles)).Ok?
    requires i < |s.particles| && s.particles[i].model.mass < 0.0
    requires var out := SimultaneousStep(sqrt, s.g, DeltaTime, Spheres(s.particles)).value;
             Dot(out[i].momentum, out[i].momentum) != 0.0
    ensures Tick(sqrt, s).Err?
  {
    SimultaneousStepBodies(sqrt, s.g, DeltaTime, Spheres(s.particles));
  }

  /** With every mass positive, as `button_add` and `set_value` keep them,
      the velocity arrows never stop the loop: a running pass succeeds
      exactly when the step does and every body feels a force. */
  lemma PositiveMassesDrawArrows(sqrt: real -> real, s: System)
    requires IsSqrt(sqrt)
    requires Valid(s) && s.running
    requires forall i :: 0 <= i < |s.particles| ==> 0.0 < s.particles[i].model.mass
    ensures Tick(sqrt, s).Ok? <==>
              SimultaneousStep(sqrt, s.g, DeltaTime, Spheres(s.particles)).Ok?
              && AllPulled(sqrt, s.g, Spheres(s.particles))
  {
    var ms := Spheres(s.particles);
    if SimultaneousStep(sqrt, s.g, DeltaTime, ms).Ok? {
      SimultaneousStepBodies(sqrt, s.g, DeltaTime, ms);
      var out := SimultaneousStep(sqrt, s.g, DeltaTime, ms).value;
      assert forall i :: 0 <= i < |out| ==> 0.0 < out[i].mass;
    }
  }

  /** A tick of the running simulation conserves the total momentum of the
      bodies. */
  lemma TickConservesMomentum(sqrt: real -> real, s: System)
    requires IsSqrt(sqrt)
    requires Valid(s)
    requires Tick(sqrt, s).Ok?
    ensures TotalMomentum(Spheres(Tick(sqrt, s).value.particles)) == TotalMomentum(Spheres(s.particles))
  {
    if s.running {
      var ms := Spheres(s.particles);
      SimultaneousConservesMomentum(sqrt, s.g, DeltaTime, ms);
    }
  }
}

=== FILE: vectors.dfy ===
/** Real-valued 3-vectors, the value type of every position, velocity,
    momentum and force in the simulation.

    Floating-point vectors become exact real vectors. The vector magnitude
    needs a square root, which real arithmetic does not provide: every
    operation that needs one takes a `sqrt` function as a parameter and
    requires `IsSqrt(sqrt)`, the two facts the model relies on. */
module Vectors {

  datatype Vec3 = Vec3(x: real, y: real, z: real)

  const Zero: Vec3 := Vec3(0.0, 0.0, 0.0)

  function Add(a: Vec3, b: Vec3): Vec3 {
    Vec3(a.x + b.x, a.y + b.y, a.z + b.z)
  }

  function Sub(a: Vec3, b: Vec3): Vec3 {
    Vec3(a.x - b.x, a.y - b.y, a.z - b.z)
  }

  function Neg(a: Vec3): Vec3 {
    Vec3(-a.x, -a.y, -a.z)
  }

  function Scale(k: real, a: Vec3): Vec3 {
    Vec3(k * a.x, k * a.y, k * a.z)
  }

  /** Division of every component by a non-zero scalar (`vector / k`). */
  function Div(a: Vec3, k: real): Vec3
    requires k != 0.0
  {
    Vec3(a.x / k, a.y / k, a.z / k)
  }

  function Dot(a: Vec3, b: Vec3): real {
    a.x * b.x + a.y * b.y + a.z * b.z
  }

  function Cross(a: Vec3, b: Vec3): Vec3 {
    Vec3(a.y * b.z - a.z * b.y, a.z * b.x - a.x * b.z, a.x * b.y - a.y * b.x)
  }

  function Abs(a: real): real {
    if a < 0.0 then -a else a
  }

  /** `sqrt` applied to `x`. The facts of `IsSqrt` are stated on this name so
      that they are brought in only where a proof asks for them (`SqrtFacts`),
      not at every use of a magnitude. */
  function Root(sqrt: real -> real, x: real): real {
    sqrt(x)
  }

  /** `sqrt` behaves as the non-negative square root on non-negative reals:
      its result is non-negative, squares back to the argument, and is
      positive exactly for positive arguments. */
  ghost predicate IsSqrt(sqrt: real -> real) {
    forall x :: 0.0 <= x ==>
      0.0 <= Root(sqrt, x) && Root(sqrt, x) * Root(sqrt, x) == x
      && (0.0 < x <==> 0.0 < Root(sqrt, x))
  }

  lemma SqrtFacts(sqrt: real -> real, x: real)
    requires IsSqrt(sqrt)
    requires 0.0 <= x
    ensures 0.0 <= sqrt(x) && sqrt(x) * sqrt(x) == x
    ensures 0.0 < x <==> 0.0 < sqrt(x)
  {
    assert Root(sqrt, x) == sqrt(x);
  }

  /** The Euclidean length of `v` (`mag` of the rendering toolkit). */
  function Mag(sqrt: real -> real, v: Vec3): real {
    sqrt(Dot(v, v))
  }

  lemma SquareNonNegative(a: real)
    ensures a * a >= 0.0
  {
  }

  lemma ProductPositive(a: real, b: real)
    requires 0.0 < a && 0.0 < b
    ensures 0.0 < a * b
  {
  }

  /** Two non-negative reals with equal squares are equal. */
  lemma NonNegativeRootUnique(s: real, a: real)
    requires 0.0 <= a && 0.0 <= s && s * s == a * a
    ensures s == a
  {
    assert (s - a) * (s + a) == s * s - a * a;
    if s > a {
      ProductPositive(s - a, s + a);
    } else if s < a {
      ProductPositive(a - s, s + a);
    }
  }

  /** A root of a non-negative square is the non-negative base. */
  lemma SqrtOfSquare(sqrt: real -> real, a: real)
    requires IsSqrt(sqrt)
    requires 0.0 <= a
    ensures sqrt(a * a) == a
  {
    SquareNonNegative(a);
    SqrtFacts(sqrt, a * a);
    NonNegativeRootUnique(sqrt(a * a), a);
  }

  lemma DotSelfNonNegative(v: Vec3)
    ensures 0.0 <= Dot(v, v)
  {
    SquareNonNegative(v.x);
    SquareNonNegative(v.y);
    SquareNonNegative(v.z);
  }

  /** The magnitude is non-negative, squares to the squared length, and is
      positive exactly when the squared length is. */
  lemma MagFacts(sqrt: real -> real, v: Vec3)
    requires IsSqrt(sqrt)
    ensures 0.0 <= Mag(sqrt, v)
    ensures Mag(sqrt, v) * Mag(sqrt, v) == Dot(v, v)
    ensures Mag(sqrt, v) > 0.0 <==> Dot(v, v) > 0.0
  {
    DotSelfNonNegative(v);
    SqrtFacts(sqrt, Dot(v, v));
  }

  lemma MagSquared(sqrt: real -> real, v: Vec3)
    requires IsSqrt(sqrt)
    ensures Mag(sqrt, v) * Mag(sqrt, v) == Dot(v, v)
  {
    DotSelfNonNegative(v);
    SqrtFacts(sqrt, Dot(v, v));
  }

  /** A vector of positive squared length has positive magnitude. */
  lemma MagPositive(sqrt: real -> real, v: Vec3)
    requires IsSqrt(sqrt)
    requires Dot(v, v) > 0.0
    ensures Mag(sqrt, v) > 0.0
  {
    SqrtFacts(sqrt, Dot(v, v));
  }

  lemma DotNeg(v: Vec3)
    ensures Dot(Neg(v), Neg(v)) == Dot(v, v)
  {
  }

  /** Reversing a vector does not change its magnitude. */
  lemma MagNeg(sqrt: real -> real, v: Vec3)
    ensures Mag(sqrt, Neg(v)) == Mag(sqrt, v)
  {
    DotNeg(v);
  }

  lemma AddZero(a: Vec3)
    ensures Add(a, Zero) == a
  {
  }

  lemma ZeroAdd(a: Vec3)
    ensures Add(Zero, a) == a
  {
  }

  lemma NegZero()
    ensures Neg(Zero) == Zero
  {
  }

  lemma ScaleAdd(k: real, a: Vec3, b: Vec3)
    ensures Scale(k, Add(a, b)) == Add(Scale(k, a), Scale(k, b))
  {
  }

  lemma ScaleNeg(k: real, a: Vec3)
    ensures Scale(k, Neg(a)) == Neg(Scale(k, a))
  {
  }

  lemma DivIsScale(a: Vec3, k: real)
    requires k != 0.0
    ensures Div(a, k) == Scale(1.0 / k, a)
  {
  }

  lemma DotScaleLeft(k: real, a: Vec3, b: Vec3)
    ensures Dot(Scale(k, a), b) == k * Dot(a, b)
  {
  }

  lemma DotScaleBoth(k: real, a: Vec3)
    ensures Dot(Scale(k, a), Scale(k, a)) == k * k * Dot(a, a)
  {
  }

  lemma CrossScaleSelf(k: real, a: Vec3)
    ensures Cross(Scale(k, a), a) == Zero
  {
  }

  lemma InverseSquare(m: real, d: real)
    requires m != 0.0 && m * m == d
    ensures (1.0 / m) * (1.0 / m) * d == 1.0
  {
  }

  /** A vector of positive length divided by its magnitude has unit length. */
  lemma UnitLength(sqrt: real -> real, v: Vec3)
    requires IsSqrt(sqrt)
    requires Dot(v, v) > 0.0
    ensures Mag(sqrt, v) > 0.0
    ensures Dot(Div(v, Mag(sqrt, v)), Div(v, Mag(sqrt, v))) == 1.0
  {
    MagPositive(sqrt, v);
    MagSquared(sqrt, v);
    var m := Mag(sqrt, v);
    DivIsScale(v, m);
    DotScaleBoth(1.0 / m, v);
    InverseSquare(m, Dot(v, v));
  }

  /** The magnitude of a scaled unit vector is the absolute scale factor. */
  lemma MagScaledUnit(sqrt: real -> real, k: real, u: Vec3)
    requires IsSqrt(sqrt)
    requires Dot(u, u) == 1.0
    ensures Mag(sqrt, Scale(k, u)) == Abs(k)
  {
    DotScaleBoth(k, u);
    AbsSquare(k);
    var a := Abs(k);
    assert Dot(Scale(k, u), Scale(k, u)) == a * a;
    assert Mag(sqrt, Scale(k, u)) == sqrt(a * a);
    SqrtOfSquare(sqrt, a);
  }

  lemma AbsNeg(a: real)
    ensures Abs(-a) == Abs(a)
  {
  }

  lemma AbsSquare(a: real)
    ensures 0.0 <= Abs(a)
    ensures Abs(a) * Abs(a) == a * a
  {
  }
}
